=== FILE: README.md ===
# Loan-guarantee dashboard core, in Dafny

`app.py` is a Streamlit dashboard over a sheet of loan-guarantee records. Around its
charts it does a few deterministic computations, and this project models and proves
those:

- **Ages** (`ages.dfy`). `calculate_age_group` maps an age to one of six decade bands.
  The birth year comes from the first two digits of the resident registration number,
  with a century cut-off at 22. The current year is a parameter.
- **Records** (`records.dfy`). This is the sidebar filter chain. There are three
  membership filters (bank, year of execution, industry), each switched off by the
  choice `전체 선택`. An inclusive range on the execution date follows.
- **Districts** (`districts.dfy`). This is the Seoul map without its rendering:
  - rows whose business address contains `서울특별시` are kept;
  - the district is the second word of `str.split()`;
  - districts missing from the district→coordinate map are dropped (the map is an
    input here);
  - amounts are summed per district and min-max normalised;
  - `중구` and `강서구` get fixed coordinates, written in place into an array.
- **Registry** (`registry.dfy`). This is the business-status lookup:
  - the distinct business numbers are cut into chunks of 100;
  - each chunk runs a retry loop bounded by `MAX_RETRIES = 3`, sleeping after HTTP
    failures and after connection failures (the two cases sleep differently);
  - `status_info` and the `completed` progress counter are accumulated.
  
  The network is a finite script of replies (`Ok(data)`, `Ok200NoData`, `HttpErr`,
  `ConnErr`). Each `time.sleep` adds one to a counter. A chunk that is still looping
  when the script runs out makes the run `Stalled`. In the source, a chunk whose
  replies are all 200 without `data` spins forever.
- **Enrichment** (`enrichment.dfy`). Dashes are stripped from the key column,
  `status_info` becomes a table, and the table is left-merged onto the rows.
- **Basics** (`basics.dfy`). Shared sequence tools: order-preserving filtering as
  pandas boolean indexing, first-occurrence de-duplication as `unique`, and
  concatenation.

Each imperative part of the source is a method, proved against a function that
specifies it:
- the filter chain (`FilterRecords`);
- the retry and chunk loops (`RetryChunk`, `LookUp`, `RecordReply`);
- building the status table (`TableOf`);
- the `.loc` coordinate overrides (`AssignWhere`, `ApplyOverrides`).

The properties are lemmas about those functions.

## Model

| member | source | states |
|---|---|---|
| Ages.AgeGroup | app.py:48-60 | every age gets one of the six labels |
| Ages.AgeGroupBands | app.py:48-60 | the band statement for all six bands at once |
| Ages.AgeGroupIsBand | app.py:48-60 | the label of an age is band k exactly when the age lies in [20+10k, 30+10k). The first band has no lower end and the last ("70대 이상") no upper end |
| Ages.AgeGroupMonotone | app.py:48-60 | an older age never gets a younger band |
| Ages.BirthYear | app.py:231 | the birth year keeps the two digits. For 0..99, above 22 means 1923..1999 and otherwise 2000..2022. Every parsable prefix gives a year in 1923..2022 |
| Ages.BirthYearWindow | app.py:231 | within 1923..2022 the last two digits give the year back |
| Ages.ParseShortInt | app.py:230 | `int()` of the two-character prefix, where it succeeds, is in -9..99 |
| Ages.ParseShortIntSpec | app.py:230 | `int()` of the prefix fails exactly when, after stripping whitespace, it is not an optional sign followed by one or more decimal digits; otherwise it yields that literal's signed value |
| Ages.ParseShortIntAccepts | app.py:230 | `" 7"` reads as 7 and `"-3"` as -3 |
| Ages.ParseShortIntRejects | app.py:230 | `"8-"`, `"- "` and `"  "` raise |
| Ages.YearPrefix | app.py:230 | `.str[:2].astype(int)` on one resident number; specified by ParseShortIntSpec and YearPrefixOfDigits |
| Ages.YearPrefixOfDigits | app.py:230 | two leading decimal digits are read as their value |
| Ages.AgeGroups | app.py:230-233 | the whole `연령대` column: no column when some customer's prefix is not an integer, otherwise one band per customer, each the band ResidentAgeGroup gives that customer |
| Ages.OneBadNumberSinksAll | app.py:230-233 | a customer born in 1985 is in the 30대 band in 2024 alone, but gets no band next to a number starting with a letter |
| Ages.ResidentAgeGroup | app.py:230-233 | a customer gets a band exactly when the prefix parses. The band is one of the six labels and the birth year lies in 1923..2022. The customer gets band k exactly when `current_year - birth_year` lies in band k |
| Records.OnOrBeforeIsDayOrder | app.py:110-111 | comparing two days is comparing their yyyymmdd numbers |
| Records.YearOf | app.py:77-78 | the `기표년도` column, `.dt.year` of the parsed date (NaT stays missing); used by the year filter that ChainIsSelection and FilterRecords specify |
| Records.IsIn | app.py:103-108 | one guarded `isin` step; specified by MembershipStep |
| Records.MembershipStep | app.py:103-108 | one guarded `isin` step keeps exactly the rows whose value is selected, or all rows when `전체 선택` is chosen |
| Records.ChainIsSelection | app.py:101-111 | the four steps one after another keep exactly the rows meeting all four conditions |
| Records.FilterRecords | app.py:101-111 | the result is the selected rows in input order. It is a subsequence of the input, keeps each selected row as often as the input has it and drops every other row. With `전체 선택` in all three lists, only the inclusive date range filters |
| Districts.Contains | app.py:278 | `str.contains('서울특별시', na=False)`; specified by ContainsIff |
| Districts.ContainsIff | app.py:278 | `str.contains` holds exactly when the text occurs at some position |
| Districts.Split | app.py:279 | `str.split()` without a separator; specified by SplitWords, SplitJoin and SplitIff |
| Districts.SplitWords | app.py:279 | `str.split()` gives non-empty words without whitespace that spell out every non-whitespace character, in order |
| Districts.SplitJoin | app.py:279 | splitting words laid out with any whitespace gaps (runs of spaces, tabs, leading and trailing whitespace) gives the words back |
| Districts.SplitIff | app.py:279 | `str.split()` of a text is a given word sequence exactly when the words are non-empty and whitespace-free and some whitespace gaps, non-empty between words, lay them out as the text; so the second token is fixed for every address |
| Districts.DistrictOf | app.py:278-296 | the district a row is kept with, or none; specified by DistrictOfIff, DistrictIsWord and the three worked examples |
| Districts.DistrictOfIff | app.py:278-296 | a row gets district d exactly when its address contains `서울특별시`, has a second word, that word is d, and d is a known district |
| Districts.DistrictIsWord | app.py:279 | an assigned district is one whitespace-free word |
| Districts.DistrictOfSeoulAddress | app.py:278-279 | `서울특별시 강남구 역삼동` is in `강남구` |
| Districts.DistrictOfOtherCity | app.py:278 | an address outside Seoul has no district |
| Districts.DistrictOfOneWord | app.py:279 | a one-word address has no second word and no district |
| Districts.Locate | app.py:278-296 | the rows of `seoul_df` that survive `dropna`, each with its district and amount; specified by LocateIsKept, LocateTotal, LocateSum, LocateFinds, LocateOrigin and LocateKeeps |
| Districts.LocateSnoc | app.py:278-296 | locating all rows is locating all but the last, then the last one |
| Districts.LocateIsKept | app.py:278-296 | exactly the surviving rows are located, once each and in input order (Aligned with Kept, the `dropna` survivors): same length, and entry k is the k-th surviving row with its district and amount |
| Districts.TotalConcat | app.py:301 | the per-district sums of two stretches of rows add up |
| Districts.LocateTotal | app.py:278-301 | each district's `groupby(...).sum()` equals the sum of the amounts of the input rows that resolve to it, every such row counted once |
| Districts.TwoEqualRows | app.py:278-301 | two identical rows of 100 in one district give it a total of 200 |
| Districts.LocateSum | app.py:278-301 | the amounts of all located rows add up to the amounts of all input rows that resolve to a district |
| Districts.LocateFinds | app.py:296 | every row that resolves to a district is kept, with its amount |
| Districts.LocateOrigin | app.py:278-296 | every kept entry comes from a row with that district and amount |
| Districts.LocateKeeps | app.py:278-296 | a district appears among the kept rows exactly when some row resolves to it |
| Districts.Total | app.py:301 | the `groupby('자치구').sum()` of one district, NaN as 0; specified by LocateTotal, TotalConcat, TotalsAddUp and MapDataRow |
| Districts.TotalsAddUp | app.py:301 | the per-district sums, with NaN amounts counting as 0, add up to the sum over all kept rows |
| Districts.Min | app.py:315 | the minimum is an element and bounds every element from below |
| Districts.Max | app.py:314 | the maximum is an element and bounds every element from above |
| Districts.Divide | app.py:320 | the quotient is NaN exactly when the divisor is 0 |
| Districts.ShareSpread | app.py:320 | between two different ends a share lies in [0,1], is 0 exactly at the low end and 1 exactly at the high end, keeps order, and scales back to its total |
| Districts.Normalize | app.py:313-320 | `normalized_loan` for every row; specified by NormalizeSpread and NormalizeFlat |
| Districts.Share | app.py:320 | one row's `(total - min) / (max - min)`; specified by ShareSpread |
| Districts.NormalizeSpread | app.py:313-320 | with max > min, each normalised total is (total−min)/(max−min) in [0,1]. The minimum gets exactly 0 and the maximum exactly 1, order is kept, and it scales back to the total |
| Districts.NormalizeFlat | app.py:320 | with max = min every normalised value is NaN (0/0) |
| Districts.MapData | app.py:305-320 | `map_data` before the overrides; specified by MapDistricts, MapDataRow, MapDataDistinct, MapDataCovers and MapDataSum |
| Districts.MapDistricts | app.py:305 | the districts of `map_data` have no repeats and all have coordinates |
| Districts.MapDataRow | app.py:301-320 | row k of `map_data` carries the district's coordinates, its total, which is the sum over the input rows that resolve to it (RowTotal), and its normalised total |
| Districts.MapDataDistinct | app.py:305-310 | `map_data` has no district twice |
| Districts.MapDataCovers | app.py:296-310 | `map_data` has a row for a district exactly when some input row resolves to it |
| Districts.MapDataSum | app.py:301-310 | the totals of `map_data` add up to the amounts of all kept rows, and so to the amounts of all input rows that resolve to a district (RowSum) |
| Districts.Assign | app.py:328-336 | one `.loc[district == d, column] = v`; specified by OverridesWin and AssignWhere |
| Districts.WithOverrides | app.py:328-336 | the four coordinate overrides; specified by OverridesWin and ApplyOverrides |
| Districts.OverridesWin | app.py:324-336 | after the overrides `중구` is at (37.5637, 126.9970) and `강서구` at (37.5510, 126.8495). Other rows keep their coordinates, and no row changes district, total or share |
| Districts.AssignWhere | app.py:328 | the in-place `.loc` write changes exactly the matching rows' column |
| Districts.ApplyOverrides | app.py:324-336 | the array afterwards holds the old rows with the four writes applied |
| Districts.BuildMapData | app.py:305-336 | a fresh array holds `map_data` with the overrides applied |
| Registry.StripDash | app.py:409 | `b_id.replace("-", "")`; specified by StripDashSpec |
| Registry.Payload | app.py:409 | the `b_no` list of one request; specified by PayloadClean |
| Registry.StripDashSpec | app.py:409 | stripping leaves no dash and removes only dashes, keeps order, and a second strip changes nothing |
| Registry.PayloadClean | app.py:409 | no identifier sent to the service contains a dash |
| Registry.Present | app.py:385 | `dropna()` on the business numbers: every present number and nothing else; ordered as PresentSource states |
| Registry.BusinessNumbers | app.py:385 | `dropna().unique()` lists every present number exactly once, and nothing else |
| Basics.DistinctOrder | app.py:385 | `unique()` keeps the order of first occurrence: the earlier of two kept values occurs before the later one occurs at all |
| Registry.PresentSource | app.py:385 | the a-th number `dropna()` keeps comes from a row whose prefix yields exactly the first a+1 kept numbers |
| Registry.FirstBeforeAt | app.py:385 | a number missing from the first a+1 kept numbers is held by no row up to the source of the a-th |
| Registry.BusinessNumbersOrder | app.py:385 | of two numbers in the list, the earlier one is held by some row before any row holds the later one |
| Registry.Chunks | app.py:397 | the batches of 100; specified by ChunksCover and ChunkSizes |
| Registry.ChunksCover | app.py:397 | the chunks, concatenated, are the identifier list |
| Registry.ChunkSizes | app.py:397 | each chunk holds 1..100 identifiers, all but the last exactly 100 |
| Registry.KeyOf | app.py:416 | `data_entry.get('b_no', '')`; specified through RecordLastWins |
| Registry.StatusOf | app.py:417-418 | the two `.get` calls defaulting to `정보 없음`; specified through RecordLastWins |
| Registry.Record | app.py:415-419 | the writes of one reply into `status_info`; specified by RecordLastWins, RecordUntouched, RecordKeys and RecordReply |
| Registry.RecordLastWins | app.py:415-419 | the entry written last for a `b_no` is the one `status_info` keeps, with `정보 없음` defaults |
| Registry.RecordUntouched | app.py:415-419 | a key no entry carries keeps its old value or stays absent |
| Registry.RecordKeys | app.py:415-419 | recording adds exactly the entries' keys |
| Registry.Step | app.py:408-427 | one pass of the `while` body; specified by ChunkEnds, FirstOkWins, ThirdFailureEnds, HttpOnlySleeps, ConnOnlySleeps and NoDataStalls |
| Registry.RunChunk | app.py:407-427 | the `while` loop of one chunk; specified by the same lemmas and by RetryChunk |
| Registry.Finish | app.py:429-435 | the progress count and the warning after a chunk; specified by ChunkKeepsCounters, RunCompleted and RunProgress |
| Registry.Run | app.py:404-435 | the `for chunk in chunks` loop; specified by RunCompleted, RunProgress, LookupCountsAll, LastCountIsTotal and LookUp |
| Registry.ChunkEnds | app.py:407 | a chunk's loop ends with success or with exactly three failures, consuming part of the script |
| Registry.FailureKeepsInfo | app.py:407-427 | a chunk that never succeeds adds nothing to `status_info` |
| Registry.FirstOkWins | app.py:412-420 | the first `Ok(data)` before the third failure ends the loop, and exactly its entries are recorded |
| Registry.ThirdFailureEnds | app.py:407-427 | with no `Ok` yet, the loop stops at the third failure: the chunk has not succeeded, nothing is recorded, and every later reply, an `Ok` included, is left unread |
| Registry.HttpOnlySleeps | app.py:421-423 | a chunk exhausted by HTTP errors alone sleeps after each failure, three times from the start |
| Registry.ConnOnlySleeps | app.py:424-427 | a chunk exhausted by connection errors alone sleeps only before the third failure, twice from the start |
| Registry.NoDataStalls | app.py:412-420 | 200 replies without `data` change neither `success` nor `retries`, so the loop keeps spinning |
| Registry.ChunkKeepsCounters | app.py:404-428 | the retry loop leaves `completed`, the progress and the warnings alone |
| Registry.CompletionsArePrefixSizes | app.py:429-430 | after the k-th chunk, `completed` is the size of the first k chunks |
| Registry.RunCompleted | app.py:404-429 | a finished run adds the size of all chunks to `completed` |
| Registry.RunProgress | app.py:429-432 | a finished run shows each chunk's running count in turn |
| Registry.LookupCountsAll | app.py:395-432 | a finished lookup ends with `completed == total`, after showing every chunk's count |
| Registry.LastCountIsTotal | app.py:429-439 | the count shown after the last chunk is `total` |
| Registry.RecordReply | app.py:415-419 | the loop over a reply's entries computes `Record` |
| Registry.RetryChunk | app.py:405-428 | the `while` loop computes `RunChunk`: the settled state and the rest of the script, or stuck when the script runs out |
| Registry.LookUp | app.py:397-435 | the batches of 100 followed by the chunk loop compute `Run` over `Chunks` of the numbers |
| Registry.LookUpChunks | app.py:404-435 | the `for chunk in chunks` loop, with its in-place counters, computes `Run` from the empty state |
| Enrichment.Key | app.py:442 | the key column has no dashes (NaN becomes "nan") |
| Enrichment.Normalized | app.py:442 | the row with its business number rewritten by `str(x).replace('-', '')`; specified by Key, KeyIsStripped and AnnotateSpec |
| Enrichment.KeyIsStripped | app.py:442 | stripping a key again changes nothing |
| Enrichment.MatchesOfKey | app.py:444-447 | a table listing `status_info` matches a key once when recorded, and never otherwise |
| Enrichment.LeftJoin | app.py:447 | `pd.merge(..., how='left')` on the key; specified by MatchesOfKey and JoinIsAnnotate |
| Enrichment.JoinIsAnnotate | app.py:447 | the left merge keeps every row exactly once, in order, with its recorded status or empty columns |
| Enrichment.AnnotateSpec | app.py:441-447 | a merged row is the original row with its key rewritten, and has a status exactly when its key was recorded |
| Enrichment.TableOf | app.py:444 | `status_df` has one row per key of `status_info`, with that key's value |
| Enrichment.MergeAsWritten | app.py:441-447 | the merge as written yields a table exactly when `status_info` is non-empty, and that table is every row in order with the status recorded for its number |
| Enrichment.FailedLookupLosesRows | app.py:444-445 | one row whose three requests fail: the lookup finishes with nothing recorded, and the merge as written gives no table |
| Enrichment.MergeWithNothingRecorded | app.py:447 | the intended merge with nothing recorded keeps every row with empty status columns |
| Enrichment.CheckClosures | app.py:383-447 | the whole lookup with the corrected merge: no table when the run stalls, otherwise every row annotated with its recorded status |

## Left out

- Streamlit page setup, uploader, sidebar widgets, CSS and markdown (app.py:17, 64-99, 138-174): user interface only. The sidebar selections and the date range are parameters.
- Reading the sheet and dropping columns (app.py:68-79). Rows are given already parsed: NaT dates, NaN amounts and NaN business numbers are `None`.
- Excel export and the download link or button (app.py:20-45, 450): these wrap xlsxwriter and base64.
- All plotly, seaborn and pydeck charts, and the quarterly `resample` (app.py:176-268, 338-361): rendering and pandas time series.
- Loading the GeoJSON file and `representative_point()` (app.py:282, 289-293): geometry in a foreign library. The district→coordinate map is an input, and coordinates are opaque pairs of reals.
- `requests.post` and `time.sleep`: the network is a script of replies and sleeping is a counter. `RetryDelay` is kept as a constant only.
- Failures the inner `except` (app.py:424) does not catch. They end the whole lookup at the outer handler (app.py:469), the partial `status_info` is lost and no merged table is offered. None of them is a `Reply`:
  - a 200 reply whose body is not JSON, so `response.json()` raises (app.py:413);
  - a `data` value that is not a list, or entries that are not dicts, so the loop or `.get` raises (app.py:415-418);
  - `requests` errors other than `ConnectionError` and `Timeout`, such as `TooManyRedirects`, `ChunkedEncodingError` or `InvalidURL` (app.py:410).
- The page-level `except` (app.py:469-471). In the script as shipped, `age_distribution` and `loan_amount_by_age_group` are never defined (app.py:260, 266), so a NameError ends the page before the map and lookup blocks run. The model treats those blocks as standalone operations.
- Floats: amounts and totals are integers, normalised shares are exact reals, and NaN is an explicit `Ratio.NaN`. Rounding is not modelled.
- The `/1e7` display column (app.py:322) and the progress percentage text (app.py:430-432): display only. The model keeps the sequence of `completed` values.
- The service key (app.py:390) and `datetime.now()` (app.py:228): the current year is a parameter.
- The first `groupby` at app.py:285 and the first coordinate columns at app.py:297-298: they are recomputed at app.py:301-309 before use, so only the later computation is modelled. On rows already restricted to known districts, `.get(x, (None, None))` equals indexing.
- The `'사업자번호' in filtered_df.columns` guard (app.py:384): every `Row` has the column.
- Business numbers that pandas reads as numbers rather than text: `b_id.replace` would then raise outside the inner `except`. Numbers are strings here, and `str()` of a non-string value is not modelled.
- Ages.ParseShortInt: it covers ASCII digits, signs and Python whitespace. `int()` also accepts other Unicode decimal digits, and this function rejects them.
- Ages.ResidentAgeGroup: answers for one customer, while `.astype(int)` at app.py:230 converts the whole column, so one bad prefix raises for every customer and the page stops there (the `except` at app.py:469 shows the error). Ages.AgeGroups models that whole-column failure. The resident number is always text here: a missing one is NaN, `.str[:2].astype(int)` raises on it, and that case is not modelled.
- Records.OnOrBeforeIsDayOrder: dates are whole days. The time-of-day part of a parsed timestamp is not modelled.
- Normalisation with all totals equal: app.py:320 then divides 0 by 0, so every share is NaN (`NormalizeFlat`).
- Business numbers are de-duplicated (app.py:385) before their dashes are stripped (app.py:409), so two spellings of one number can both be sent.

## Findings

| source | as written | input that shows it | evidently intended | confidence | as-written member | corrected member |
|---|---|---|---|---|---|---|
| app.py:444-445 | `from_dict(status_info, orient='index').reset_index()` has only one column when `status_info` is empty, so assigning three column names raises a ValueError. The handler at app.py:469 swallows it and no merged table is offered | one row with a business number, and three HTTP error replies to its only chunk | the left merge with an empty status table: every row once, with empty status columns | not executed | Enrichment.FailedLookupLosesRows | Enrichment.CheckClosures |

=== FILE: ages.dfy ===
/** Customer age bands, derived from the first two digits of the resident
    registration number (app.py:48-60 and app.py:230-233). The current year is
    a parameter instead of a reading of the clock. */
module Ages {
  import opened Basics

  /** The six labels `calculate_age_group` can return, youngest band first. */
  const Labels: seq<string> := ["20대", "30대", "40대", "50대", "60대", "70대 이상"]

  /** Two-digit years above this belong to the 1900s, the others to the 2000s. */
  const CenturyPivot := 22

  /** `calculate_age_group`: under 30 is the first band, 70 or more the last,
      each decade in between its own band. */
  function AgeGroup(age: int): (group: string)
    ensures group in Labels
  {
    if age < 30 then "20대"
    else if age < 40 then "30대"
    else if age < 50 then "40대"
    else if age < 60 then "50대"
    else if age < 70 then "60대"
    else "70대 이상"
  }

  /** Band `k` starts at age 20 + 10k (the first band has no lower end) and
      ends before 30 + 10k (the last band has no upper end). */
  predicate InBand(age: int, k: nat)
  {
    (k == 0 || 20 + 10 * k <= age) && (k == 5 || age < 30 + 10 * k)
  }

  /** The label of an age is the label of the decade band it falls in, and of no other. */
  lemma AgeGroupIsBand(age: int, k: nat)
    requires k < |Labels|
    ensures AgeGroup(age) == Labels[k] <==> InBand(age, k)
  {
    assert forall i, j :: 0 <= i < j < |Labels| ==> Labels[i] != Labels[j] by {
      assert Labels[0][0] == '2' && Labels[1][0] == '3' && Labels[2][0] == '4';
      assert Labels[3][0] == '5' && Labels[4][0] == '6' && Labels[5][0] == '7';
    }
  }

  /** `AgeGroupIsBand` for every band at once. */
  lemma AgeGroupBands(age: int)
    ensures forall k :: 0 <= k < |Labels| ==> (AgeGroup(age) == Labels[k] <==> InBand(age, k))
  {
    forall k | 0 <= k < |Labels| {
      AgeGroupIsBand(age, k);
    }
  }

  /** Older never means a younger band. */
  lemma AgeGroupMonotone(a: int, b: int, i: nat, j: nat)
    requires a <= b && i < |Labels| && j < |Labels|
    requires AgeGroup(a) == Labels[i] && AgeGroup(b) == Labels[j]
    ensures i <= j
  {
    AgeGroupIsBand(a, i);
    AgeGroupIsBand(b, j);
  }

  /** The birth-year lambda of app.py:231: a two-digit year above 22 is in the
      1900s, any other in the 2000s. */
  function BirthYear(yy: int): (year: int)
    ensures year % 100 == yy % 100
    ensures 0 <= yy <= 99 ==> (yy > CenturyPivot <==> 1923 <= year <= 1999)
    ensures 0 <= yy <= 99 ==> (yy <= CenturyPivot <==> 2000 <= year <= 2022)
    ensures -9 <= yy <= 99 ==> 1923 <= year <= 2022
  {
    if yy > CenturyPivot then 1900 + yy else 2000 + yy
  }

  /** Within the century window 1923..2022 the last two digits determine the year. */
  lemma BirthYearWindow(year: int)
    requires 1923 <= year <= 2022
    ensures BirthYear(year % 100) == year
  {
  }

  predicate IsDigit(c: char)
  {
    '0' <= c <= '9'
  }

  /** The value of a string of decimal digits. */
  function DigitsValue(s: string): (n: nat)
    requires forall i :: 0 <= i < |s| ==> IsDigit(s[i])
    ensures n < Power10(|s|)
  {
    if s == [] then 0
    else
      assert IsDigit(s[|s| - 1]);
      var m, d := DigitsValue(s[..|s| - 1]), s[|s| - 1] as int - '0' as int;
      assert m * 10 + d < Power10(|s|) by {
        assert (m + 1) * 10 <= Power10(|s| - 1) * 10;
      }
      m * 10 + d
  }

  function Power10(n: nat): (p: nat)
    ensures p >= 1
  {
    if n == 0 then 1 else 10 * Power10(n - 1)
  }

  /** `s` with Python whitespace removed from both ends, as `int()` does. */
  function Strip(s: string): (t: string)
    ensures |t| <= |s|
    ensures t != [] ==> !IsSpace(t[0]) && !IsSpace(t[|t| - 1])
  {
    if s != [] && IsSpace(s[0]) then Strip(s[1..])
    else if s != [] && IsSpace(s[|s| - 1]) then Strip(s[..|s| - 1])
    else s
  }

  /** Python's `int()` on a string of at most two characters (the slice
      `str[:2]`): optional surrounding whitespace, an optional sign, then digits.
      `None` stands for the ValueError that `astype(int)` raises. */
  function ParseShortInt(s: string): (r: Option<int>)
    requires |s| <= 2
    ensures r.Some? ==> -9 <= r.value <= 99
  {
    var t := Strip(s);
    if t == [] then None
    else if t[0] == '-' || t[0] == '+' then
      if |t| == 2 && IsDigit(t[1]) then
        var v: int := DigitsValue(t[1..]);
        Some(if t[0] == '-' then -v else v)
      else None
    else if forall i :: 0 <= i < |t| ==> IsDigit(t[i]) then Some(DigitsValue(t))
    else None
  }

  /** The text after an optional leading sign. */
  function Unsigned(t: string): (u: string)
    ensures |u| <= |t|
  {
    if t != [] && (t[0] == '-' || t[0] == '+') then t[1..] else t
  }

  /** An integer literal of any length: an optional sign, then one or more
      decimal digits, and nothing else. */
  predicate IsIntLiteral(t: string)
  {
    var digits := Unsigned(t);
    digits != [] && forall i :: 0 <= i < |digits| ==> IsDigit(digits[i])
  }

  /** The value an integer literal denotes. */
  function LiteralValue(t: string): int
    requires IsIntLiteral(t)
  {
    var v: int := DigitsValue(Unsigned(t));
    if t[0] == '-' then -v else v
  }

  /** On two characters, `int()` succeeds exactly on an integer literal
      surrounded by whitespace, and then yields that literal's value. */
  lemma ParseShortIntSpec(s: string)
    requires |s| <= 2
    ensures ParseShortInt(s).None? <==> !IsIntLiteral(Strip(s))
    ensures IsIntLiteral(Strip(s)) ==> ParseShortInt(s) == Some(LiteralValue(Strip(s)))
  {
    var t := Strip(s);
    if t != [] && (t[0] == '-' || t[0] == '+') && |t| == 2 {
      assert Unsigned(t) == t[1..] && |t[1..]| == 1 && t[1..][0] == t[1];
    }
  }

  /** `int()` on two-character prefixes it accepts. */
  lemma ParseShortIntAccepts()
    ensures ParseShortInt(" 7") == Some(7)
    ensures ParseShortInt("-3") == Some(-3)
  {
    assert Strip(" 7") == Strip(" 7"[1..]) == "7";
    assert Strip("-3") == "-3";
    assert DigitsValue("7") == DigitsValue("7"[..0]) * 10 + 7;
    assert DigitsValue("3") == DigitsValue("3"[..0]) * 10 + 3;
  }

  /** `int()` on two-character prefixes it rejects: a trailing sign, a sign
      with no digit, and whitespace only. */
  lemma ParseShortIntRejects()
    ensures ParseShortInt("8-") == None
    ensures ParseShortInt("- ") == None
    ensures ParseShortInt("  ") == None
  {
    assert Strip("8-") == "8-";
    assert Strip("- ") == Strip("- "[..1]) == "-";
    assert Strip("  ") == Strip("  "[1..]) == Strip(" "[1..]) == [];
  }

  /** The two-digit year prefix of a resident registration number, `str[:2].astype(int)`. */
  function YearPrefix(residentNo: string): Option<int>
  {
    ParseShortInt(residentNo[..if |residentNo| < 2 then |residentNo| else 2])
  }

  /** Two leading decimal digits are read as their value. */
  lemma YearPrefixOfDigits(residentNo: string)
    requires |residentNo| >= 2 && IsDigit(residentNo[0]) && IsDigit(residentNo[1])
    ensures YearPrefix(residentNo)
         == Some(10 * (residentNo[0] as int - '0' as int) + (residentNo[1] as int - '0' as int))
  {
    var p := residentNo[..2];
    assert Strip(p) == p;
    assert DigitsValue(p[..1]) == residentNo[0] as int - '0' as int;
  }

  /** The age band of one customer (app.py:230-233); `None` when the prefix is
      not an integer, where the source raises. */
  function ResidentAgeGroup(residentNo: string, currentYear: int): (r: Option<string>)
    ensures r.Some? <==> YearPrefix(residentNo).Some?
    ensures r.Some? ==> r.value in Labels
    ensures r.Some? ==> 1923 <= BirthYear(YearPrefix(residentNo).value) <= 2022
    ensures forall k :: 0 <= k < |Labels| ==>
      (r == Some(Labels[k]) <==>
        YearPrefix(residentNo).Some? && InBand(currentYear - BirthYear(YearPrefix(residentNo).value), k))
  {
    match YearPrefix(residentNo)
    case None => None
    case Some(yy) =>
      AgeGroupBands(currentYear - BirthYear(yy));
      Some(AgeGroup(currentYear - BirthYear(yy)))
  }

  /** The `연령대` column for all filtered customers at once (app.py:230-233).
      `.astype(int)` converts the whole column, so a single prefix that is not
      an integer fails the step for every customer: `None`. */
  function AgeGroups(residentNos: seq<string>, currentYear: int): (groups: Option<seq<string>>)
    ensures groups.None? <==> exists j :: 0 <= j < |residentNos| && YearPrefix(residentNos[j]).None?
    ensures groups.Some? ==> |groups.value| == |residentNos|
    ensures groups.Some? ==> forall j :: 0 <= j < |residentNos| ==>
      ResidentAgeGroup(residentNos[j], currentYear) == Some(groups.value[j])
  {
    if residentNos == [] then Some([])
    else
      var rest := AgeGroups(residentNos[1..], currentYear);
      match ResidentAgeGroup(residentNos[0], currentYear)
      case None => None
      case Some(g) =>
        if rest.None? then
          var j :| 0 <= j < |residentNos[1..]| && YearPrefix(residentNos[1..][j]).None?;
          assert residentNos[j + 1] == residentNos[1..][j];
          None
        else
          assert forall j :: 1 <= j < |residentNos| ==> residentNos[j] == residentNos[1..][j - 1];
          Some([g] + rest.value)
  }

  /** One unreadable number takes the band away from a customer whose own number is fine. */
  lemma OneBadNumberSinksAll()
    ensures ResidentAgeGroup("850101-1234567", 2024) == Some("30대")
    ensures AgeGroups(["850101-1234567", "x50101-1234567"], 2024) == None
  {
    YearPrefixOfDigits("850101-1234567");
    assert YearPrefix("x50101-1234567").None? by {
      assert "x50101-1234567"[..2] == "x5";
      assert Strip("x5") == "x5";
    }
    assert ["850101-1234567", "x50101-1234567"][1] == "x50101-1234567";
  }
}

=== FILE: basics.dfy ===
/** Small sequence utilities shared by the dashboard model: an optional value,
    order-preserving filtering (pandas boolean indexing), first-occurrence
    de-duplication (pandas `unique`/`drop_duplicates`) and concatenation. */
module Basics {

  datatype Option<T> = None | Some(value: T)

  /** Python's `str.isspace` on one character: the separators that `str.split()`
      splits on and that `int()` strips from both ends of its argument. */
  predicate IsSpace(c: char)
  {
    || c == ' '
    || ('\t' <= c <= '\r')
    || ('\U{1C}' <= c <= '\U{1F}')
    || c == '\U{85}' || c == '\U{A0}' || c == '\U{1680}'
    || ('\U{2000}' <= c <= '\U{200A}')
    || c == '\U{2028}' || c == '\U{2029}' || c == '\U{202F}' || c == '\U{205F}' || c == '\U{3000}'
  }

  /** Keeps the elements of `s` that satisfy `p`, in their original order. */
  function Filter<T>(s: seq<T>, p: T -> bool): (r: seq<T>)
    ensures |r| <= |s|
    ensures forall x :: x in r ==> x in s && p(x)
  {
    if s == [] then [] else (if p(s[0]) then [s[0]] else []) + Filter(s[1..], p)
  }

  /** `idx` lists, in strictly increasing order, positions of `b` that spell out `a`. */
  ghost predicate Embeds<T>(a: seq<T>, b: seq<T>, idx: seq<int>)
  {
    && |idx| == |a|
    && (forall i :: 0 <= i < |idx| ==> 0 <= idx[i] < |b| && a[i] == b[idx[i]])
    && (forall i, j :: 0 <= i < j < |idx| ==> idx[i] < idx[j])
  }

  /** `a` is obtained from `b` by deleting elements. */
  ghost predicate IsSubsequence<T>(a: seq<T>, b: seq<T>)
  {
    exists idx :: Embeds(a, b, idx)
  }

  /** The positions of `s` that `Filter(s, p)` keeps. */
  function KeptPositions<T>(s: seq<T>, p: T -> bool): seq<int>
  {
    if s == [] then []
    else
      var rest := KeptPositions(s[1..], p);
      (if p(s[0]) then [0] else []) + seq(|rest|, i requires 0 <= i < |rest| => rest[i] + 1)
  }

  lemma {:induction false} FilterEmbeds<T>(s: seq<T>, p: T -> bool)
    ensures Embeds(Filter(s, p), s, KeptPositions(s, p))
  {
    if s != [] {
      FilterEmbeds(s[1..], p);
      var rest := KeptPositions(s[1..], p);
      var shifted := seq(|rest|, i requires 0 <= i < |rest| => rest[i] + 1);
      assert Embeds(Filter(s[1..], p), s, shifted) by {
        forall i | 0 <= i < |shifted|
          ensures 0 <= shifted[i] < |s| && Filter(s[1..], p)[i] == s[shifted[i]]
        {
          assert s[shifted[i]] == s[1..][rest[i]];
        }
      }
    }
  }

  /** Filtering never invents, reorders or repeats elements. */
  lemma FilterIsSubsequence<T>(s: seq<T>, p: T -> bool)
    ensures IsSubsequence(Filter(s, p), s)
  {
    FilterEmbeds(s, p);
  }

  /** Every occurrence of an element satisfying `p` survives, every other one is dropped. */
  lemma {:induction false} FilterCount<T>(s: seq<T>, p: T -> bool, x: T)
    ensures multiset(Filter(s, p))[x] == if p(x) then multiset(s)[x] else 0
  {
    if s != [] {
      FilterCount(s[1..], p, x);
      assert s == [s[0]] + s[1..];
      assert multiset(s) == multiset([s[0]]) + multiset(s[1..]);
    }
  }

  /** A predicate that holds everywhere removes nothing. */
  lemma {:induction false} FilterAll<T>(s: seq<T>, p: T -> bool)
    requires forall x :: x in s ==> p(x)
    ensures Filter(s, p) == s
  {
    if s != [] {
      FilterAll(s[1..], p);
      assert s == [s[0]] + s[1..];
    }
  }

  /** A predicate that holds nowhere removes everything. */
  lemma FilterNone<T>(s: seq<T>, p: T -> bool)
    requires forall x :: x in s ==> !p(x)
    ensures Filter(s, p) == []
  {
    if Filter(s, p) != [] {
      assert Filter(s, p)[0] in Filter(s, p);
    }
  }

  /** Filtering distributes over concatenation. */
  lemma {:induction false} FilterConcat<T>(s: seq<T>, t: seq<T>, p: T -> bool)
    ensures Filter(s + t, p) == Filter(s, p) + Filter(t, p)
  {
    if s != [] {
      assert (s + t)[0] == s[0] && (s + t)[1..] == s[1..] + t;
      FilterConcat(s[1..], t, p);
      var head := if p(s[0]) then [s[0]] else [];
      calc {
        Filter(s + t, p);
        { assert s + t != []; }
        head + Filter((s + t)[1..], p);
        head + Filter(s[1..] + t, p);
        head + (Filter(s[1..], p) + Filter(t, p));
        (head + Filter(s[1..], p)) + Filter(t, p);
      }
    } else {
      assert s + t == t;
    }
  }

  /** Filtering with two predicates that agree on `s` gives the same result. */
  lemma {:induction false} FilterAgree<T>(s: seq<T>, p: T -> bool, q: T -> bool)
    requires forall x :: x in s ==> p(x) == q(x)
    ensures Filter(s, p) == Filter(s, q)
  {
    if s != [] {
      FilterAgree(s[1..], p, q);
    }
  }

  /** The predicate that holds where both `p` and `q` hold. */
  function And<T>(p: T -> bool, q: T -> bool): T -> bool
  {
    x => p(x) && q(x)
  }

  /** Filtering twice is filtering once by the conjunction. */
  lemma {:induction false} FilterTwice<T>(s: seq<T>, p: T -> bool, q: T -> bool)
    ensures Filter(Filter(s, p), q) == Filter(s, And(p, q))
  {
    if s != [] {
      FilterTwice(s[1..], p, q);
      var fp := Filter(s, p);
      if p(s[0]) {
        assert fp == [s[0]] + Filter(s[1..], p);
        assert fp[0] == s[0] && fp[1..] == Filter(s[1..], p);
      } else {
        assert fp == Filter(s[1..], p);
      }
    }
  }

  predicate NoDuplicates<T(==)>(s: seq<T>)
  {
    forall i, j :: 0 <= i < j < |s| ==> s[i] != s[j]
  }

  /** The distinct elements of `s` in order of first occurrence. */
  function Distinct<T(==)>(s: seq<T>): (r: seq<T>)
    ensures forall i :: 0 <= i < |r| ==> r[i] in s
    ensures forall i :: 0 <= i < |s| ==> s[i] in r
    ensures NoDuplicates(r)
    ensures |r| <= |s|
  {
    if s == [] then []
    else
      var d := Distinct(s[..|s| - 1]);
      assert forall i :: 0 <= i < |s| - 1 ==> s[i] == s[..|s| - 1][i];
      if s[|s| - 1] in d then d else d + [s[|s| - 1]]
  }

  /** `Distinct` keeps the order of first occurrence: of two kept elements,
      the earlier one occurs in `s` before the later one occurs at all. */
  lemma {:induction false} DistinctOrder<T>(s: seq<T>)
    ensures forall i, j :: 0 <= i < j < |Distinct(s)| ==>
      exists a :: 0 <= a < |s| && s[a] == Distinct(s)[i] && Distinct(s)[j] !in s[..a + 1]
  {
    if s != [] {
      var init, x := s[..|s| - 1], s[|s| - 1];
      var d, r := Distinct(init), Distinct(s);
      DistinctOrder(init);
      assert r == if x in d then d else d + [x];
      forall i, j | 0 <= i < j < |r|
        ensures exists a :: 0 <= a < |s| && s[a] == r[i] && r[j] !in s[..a + 1]
      {
        assert r[i] == d[i];
        if j < |d| {
          assert r[j] == d[j];
          var a :| 0 <= a < |init| && init[a] == d[i] && d[j] !in init[..a + 1];
          assert init[..a + 1] == s[..a + 1];
        } else {
          assert r[j] == x && x !in d;
          var a :| 0 <= a < |init| && init[a] == d[i];
          forall k | 0 <= k < a + 1
            ensures s[k] != x
          {
            assert s[k] == init[k] && init[k] in d;
          }
          assert s[a] == r[i];
        }
      }
    } else {
      assert Distinct(s) == [];
    }
  }

  /** Concatenation of a sequence of sequences. */
  function Flatten<T>(ss: seq<seq<T>>): (r: seq<T>)
  {
    if ss == [] then [] else ss[0] + Flatten(ss[1..])
  }
}

=== FILE: districts.dfy ===
/** The Seoul district map of app.py:276-336 without its rendering: keep the
    rows whose business address mentions Seoul, take the second word of the
    address as the district, drop districts the boundary data does not know,
    sum the amounts per district, min-max normalise the sums and overwrite the
    coordinates of two districts whose computed centre is unreliable.

    The district -> coordinate map (built at app.py:282-293 from a GeoJSON
    file with `representative_point()`) is an input here. */
module Districts {
  import opened Basics
  import opened Records

  /** The region every eligible address must mention. */
  const Seoul := "서울특별시"

  /** A representative point of a district, latitude first. */
  datatype Coord = Coord(lat: real, lon: real)

  // ---------------------------------------------------------------- substring test

  /** `needle` occurs in `s` starting at index `i`. */
  ghost predicate OccursAt(s: string, needle: string, i: int)
  {
    0 <= i && i + |needle| <= |s| && s[i..i + |needle|] == needle
  }

  /** `str.contains(needle)`; the needle here has no regular-expression
      metacharacters, so it is a plain substring test. */
  function Contains(s: string, needle: string): bool
    decreases |s|
  {
    |needle| <= |s| && (s[..|needle|] == needle || Contains(s[1..], needle))
  }

  lemma {:induction false} OccurrenceIsFound(s: string, needle: string, i: int)
    requires OccursAt(s, needle, i)
    ensures Contains(s, needle)
    decreases i
  {
    if i > 0 {
      assert s[1..][i - 1..i - 1 + |needle|] == s[i..i + |needle|];
      OccurrenceIsFound(s[1..], needle, i - 1);
    }
  }

  lemma {:induction false} FoundIsOccurrence(s: string, needle: string)
    requires Contains(s, needle)
    ensures exists i :: OccursAt(s, needle, i)
    decreases |s|
  {
    if s[..|needle|] == needle {
      assert OccursAt(s, needle, 0);
    } else {
      FoundIsOccurrence(s[1..], needle);
      var i :| OccursAt(s[1..], needle, i);
      assert s[i + 1..i + 1 + |needle|] == s[1..][i..i + |needle|];
      assert OccursAt(s, needle, i + 1);
    }
  }

  /** A text without the needle's first character does not contain it. */
  lemma {:induction false} MissingFirstCharacter(s: string, needle: string)
    requires needle != []
    requires forall k :: 0 <= k < |s| ==> s[k] != needle[0]
    ensures !Contains(s, needle)
    decreases |s|
  {
    if |needle| <= |s| {
      assert s[..|needle|][0] != needle[0];
      MissingFirstCharacter(s[1..], needle);
    }
  }

  /** `Contains` finds exactly the occurrences of the needle. */
  lemma ContainsIff(s: string, needle: string)
    ensures Contains(s, needle) <==> exists i :: OccursAt(s, needle, i)
  {
    if Contains(s, needle) {
      FoundIsOccurrence(s, needle);
    }
    if exists i :: OccursAt(s, needle, i) {
      var i :| OccursAt(s, needle, i);
      OccurrenceIsFound(s, needle, i);
    }
  }

  // ---------------------------------------------------------------- str.split()

  /* The splitting below is stated for any whitespace predicate `space`;
     `Split` instantiates it with Python's `str.isspace`. */

  /** `s` without its leading whitespace. */
  function SkipSpaces(s: string, space: char -> bool): (t: string)
    ensures |t| <= |s| && t == s[|s| - |t|..]
    ensures t != [] ==> !space(t[0])
    ensures forall i :: 0 <= i < |s| - |t| ==> space(s[i])
  {
    if s != [] && space(s[0]) then SkipSpaces(s[1..], space) else s
  }

  /** The length of the run of non-whitespace characters `s` starts with. */
  function WordLength(s: string, space: char -> bool): (n: nat)
    ensures n <= |s|
    ensures forall i :: 0 <= i < n ==> !space(s[i])
    ensures n < |s| ==> space(s[n])
  {
    if s == [] || space(s[0]) then 0 else 1 + WordLength(s[1..], space)
  }

  /** The maximal runs of non-whitespace characters of `s`, left to right. */
  function SplitOn(s: string, space: char -> bool): (words: seq<string>)
    decreases |s|
  {
    var t := SkipSpaces(s, space);
    if t == [] then []
    else
      var n := WordLength(t, space);
      [t[..n]] + SplitOn(t[n..], space)
  }

  predicate IsWordOf(w: string, space: char -> bool)
  {
    w != [] && forall i :: 0 <= i < |w| ==> !space(w[i])
  }

  function NonSpace(space: char -> bool): char -> bool
  {
    c => !space(c)
  }

  /** Leading whitespace contributes nothing to the word characters. */
  lemma SkippedSpacesAreSilent(s: string, space: char -> bool)
    ensures Filter(s, NonSpace(space)) == Filter(SkipSpaces(s, space), NonSpace(space))
  {
    var t, lead := SkipSpaces(s, space), Lead(s, space);
    LeadSplits(s, space);
    FilterConcat(lead, t, NonSpace(space));
    assert forall x :: x in lead ==> !NonSpace(space)(x) by {
      forall x | x in lead
        ensures !NonSpace(space)(x)
      {
        var j :| 0 <= j < |lead| && lead[j] == x;
      }
    }
    FilterNone(lead, NonSpace(space));
  }

  /** A leading word keeps all its characters. */
  lemma LeadingWordKept(t: string, n: nat, space: char -> bool)
    requires n <= |t| && forall i :: 0 <= i < n ==> !space(t[i])
    ensures Filter(t, NonSpace(space)) == t[..n] + Filter(t[n..], NonSpace(space))
  {
    assert t == t[..n] + t[n..];
    FilterConcat(t[..n], t[n..], NonSpace(space));
    FilterAll(t[..n], NonSpace(space));
  }

  /** One step of the split: the leading word, then the words of the rest. */
  lemma SplitUnfold(s: string, space: char -> bool)
    requires SkipSpaces(s, space) != []
    ensures var t := SkipSpaces(s, space);
      SplitOn(s, space) == [t[..WordLength(t, space)]] + SplitOn(t[WordLength(t, space)..], space)
  {
  }

  lemma FlattenCons<T>(w: seq<T>, ws: seq<seq<T>>)
    ensures Flatten([w] + ws) == w + Flatten(ws)
  {
    assert ([w] + ws)[1..] == ws;
  }

  lemma ConsWords(w: string, ws: seq<string>, space: char -> bool)
    requires IsWordOf(w, space)
    requires forall k :: 0 <= k < |ws| ==> IsWordOf(ws[k], space)
    ensures forall k :: 0 <= k < |[w] + ws| ==> IsWordOf(([w] + ws)[k], space)
  {
    forall k | 0 <= k < |[w] + ws|
      ensures IsWordOf(([w] + ws)[k], space)
    {
      if k > 0 {
        assert ([w] + ws)[k] == ws[k - 1];
      }
    }
  }

  /** The words are non-empty and hold no whitespace. */
  lemma {:induction false} SplitOnAreWords(s: string, space: char -> bool)
    ensures forall k :: 0 <= k < |SplitOn(s, space)| ==> IsWordOf(SplitOn(s, space)[k], space)
    decreases |s|
  {
    var t := SkipSpaces(s, space);
    if t != [] {
      var n := WordLength(t, space);
      var ws := SplitOn(t[n..], space);
      SplitOnAreWords(t[n..], space);
      LeadingWordIsWord(t, space);
      ConsWords(t[..n], ws, space);
      SplitUnfold(s, space);
    }
  }

  lemma LeadingWordIsWord(t: string, space: char -> bool)
    requires t != [] && !space(t[0])
    ensures IsWordOf(t[..WordLength(t, space)], space)
  {
    var n := WordLength(t, space);
    assert n > 0;
    forall i | 0 <= i < n
      ensures !space(t[..n][i])
    {
      assert t[..n][i] == t[i];
    }
  }

  /** Together the words hold every character of `s` that is not whitespace, in order. */
  lemma {:induction false} SplitOnKeepsText(s: string, space: char -> bool)
    ensures Flatten(SplitOn(s, space)) == Filter(s, NonSpace(space))
    decreases |s|
  {
    var t := SkipSpaces(s, space);
    SkippedSpacesAreSilent(s, space);
    if t != [] {
      var n := WordLength(t, space);
      LeadingWordKept(t, n, space);
      SplitOnKeepsText(t[n..], space);
      SplitUnfold(s, space);
      FlattenCons(t[..n], SplitOn(t[n..], space));
    }
  }

  predicate AllSpace(g: string, space: char -> bool)
  {
    forall i :: 0 <= i < |g| ==> space(g[i])
  }

  /** The whitespace around `n` words: one gap before each word and one after
      the last, every gap whitespace only, and the gaps between two words
      non-empty. */
  predicate Spacing(gaps: seq<string>, n: nat, space: char -> bool)
  {
    && |gaps| == n + 1
    && (forall k :: 0 <= k < |gaps| ==> AllSpace(gaps[k], space))
    && (forall k :: 0 < k < n ==> gaps[k] != [])
  }

  /** The words laid out with the given gaps: `gaps[0] + words[0] + gaps[1] + ...`. */
  function JoinWith(words: seq<string>, gaps: seq<string>): string
    requires |gaps| == |words| + 1
    decreases |words|
  {
    if words == [] then gaps[0] else gaps[0] + words[0] + JoinWith(words[1..], gaps[1..])
  }

  lemma {:induction false} SkipGap(g: string, s: string, space: char -> bool)
    requires AllSpace(g, space)
    ensures SkipSpaces(g + s, space) == SkipSpaces(s, space)
    decreases |g|
  {
    if g == [] {
      assert g + s == s;
    } else {
      assert (g + s)[0] == g[0];
      assert (g + s)[1..] == g[1..] + s;
      SkipGap(g[1..], s, space);
    }
  }

  /** Whitespace in front changes no word. */
  lemma SplitAfterGap(g: string, s: string, space: char -> bool)
    requires AllSpace(g, space)
    ensures SplitOn(g + s, space) == SplitOn(s, space)
  {
    SkipGap(g, s, space);
  }

  lemma {:induction false} WordLengthOfWord(w: string, rest: string, space: char -> bool)
    requires IsWordOf(w, space)
    requires rest == [] || space(rest[0])
    ensures WordLength(w + rest, space) == |w|
    decreases |w|
  {
    assert (w + rest)[0] == w[0];
    if |w| > 1 {
      assert (w + rest)[1..] == w[1..] + rest;
      WordLengthOfWord(w[1..], rest, space);
    } else {
      assert (w + rest)[1..] == rest;
    }
  }

  /** A word followed by whitespace (or nothing) is split off first. */
  lemma SplitLeadingWord(w: string, rest: string, space: char -> bool)
    requires IsWordOf(w, space)
    requires rest == [] || space(rest[0])
    ensures SplitOn(w + rest, space) == [w] + SplitOn(rest, space)
  {
    assert SkipSpaces(w + rest, space) == w + rest;
    WordLengthOfWord(w, rest, space);
    assert (w + rest)[..|w|] == w && (w + rest)[|w|..] == rest;
  }

  lemma SplitSingleWord(w: string, space: char -> bool)
    requires IsWordOf(w, space)
    ensures SplitOn(w, space) == [w]
  {
    assert SkipSpaces(w, space) == w;
    assert WordLength(w, space) == |w|;
    assert w[..|w|] == w && w[|w|..] == [];
  }

  lemma SpacingTail(gaps: seq<string>, n: nat, space: char -> bool)
    requires n > 0 && Spacing(gaps, n, space)
    ensures Spacing(gaps[1..], n - 1, space)
  {
    forall k | 0 <= k < |gaps[1..]|
      ensures AllSpace(gaps[1..][k], space)
    {
      assert gaps[1..][k] == gaps[k + 1];
    }
    forall k | 0 < k < n - 1
      ensures gaps[1..][k] != []
    {
      assert gaps[1..][k] == gaps[k + 1];
    }
  }

  lemma JoinWithCons(words: seq<string>, gaps: seq<string>)
    requires words != [] && |gaps| == |words| + 1
    ensures JoinWith(words, gaps) == gaps[0] + (words[0] + JoinWith(words[1..], gaps[1..]))
  {
  }

  /** What follows a word is empty or starts with whitespace. */
  lemma AfterWord(words: seq<string>, gaps: seq<string>, space: char -> bool)
    requires words != [] && Spacing(gaps, |words|, space)
    ensures var rest := JoinWith(words[1..], gaps[1..]);
      rest == [] || space(rest[0])
  {
    var ws, gs := words[1..], gaps[1..];
    var rest := JoinWith(ws, gs);
    assert gs[0] == gaps[1] && AllSpace(gaps[1], space);
    if ws != [] {
      JoinWithCons(ws, gs);
      assert gaps[1] != [];
      assert rest[0] == gs[0][0];
    }
  }

  lemma WordsTail(words: seq<string>, space: char -> bool)
    requires words != [] && forall k :: 0 <= k < |words| ==> IsWordOf(words[k], space)
    ensures IsWordOf(words[0], space)
    ensures forall k :: 0 <= k < |words[1..]| ==> IsWordOf(words[1..][k], space)
  {
    assert forall k :: 0 <= k < |words[1..]| ==> words[1..][k] == words[k + 1];
  }

  lemma SplitGapOnly(g: string, space: char -> bool)
    requires AllSpace(g, space)
    ensures SplitOn(g, space) == []
  {
    SplitAfterGap(g, [], space);
    assert g + [] == g;
  }

  /** A gap, a word, then whitespace or nothing: the word comes first. */
  lemma JoinStep(g: string, w: string, rest: string, space: char -> bool)
    requires AllSpace(g, space) && IsWordOf(w, space)
    requires rest == [] || space(rest[0])
    ensures SplitOn(g + (w + rest), space) == [w] + SplitOn(rest, space)
  {
    SplitAfterGap(g, w + rest, space);
    SplitLeadingWord(w, rest, space);
  }

  /** Splitting words laid out with any whitespace gaps gives the words back. */
  lemma {:induction false} SplitOnJoinWith(words: seq<string>, gaps: seq<string>, space: char -> bool)
    requires Spacing(gaps, |words|, space)
    requires forall k :: 0 <= k < |words| ==> IsWordOf(words[k], space)
    ensures SplitOn(JoinWith(words, gaps), space) == words
    decreases |words|
  {
    if words == [] {
      assert AllSpace(gaps[0], space);
      SplitGapOnly(gaps[0], space);
    } else {
      var w, ws, gs := words[0], words[1..], gaps[1..];
      var rest := JoinWith(ws, gs);
      JoinWithCons(words, gaps);
      AfterWord(words, gaps, space);
      WordsTail(words, space);
      SpacingTail(gaps, |words|, space);
      JoinStep(gaps[0], w, rest, space);
      SplitOnJoinWith(ws, gs, space);
      HeadTail(words);
    }
  }

  /** The leading whitespace of `s`. */
  function Lead(s: string, space: char -> bool): string
  {
    s[..|s| - |SkipSpaces(s, space)|]
  }

  lemma LeadSplits(s: string, space: char -> bool)
    ensures AllSpace(Lead(s, space), space)
    ensures s == Lead(s, space) + SkipSpaces(s, space)
  {
    var k := |s| - |SkipSpaces(s, space)|;
    TakeDrop(s, k);
    forall i | 0 <= i < k
      ensures space(s[..k][i])
    {
      assert s[..k][i] == s[i];
    }
  }

  /** Text that starts with whitespace has a non-empty lead. */
  lemma LeadOfSpace(s: string, space: char -> bool)
    requires s != [] && space(s[0])
    ensures Lead(s, space) != []
  {
  }

  lemma SpacingCons(g: string, gaps: seq<string>, n: nat, space: char -> bool)
    requires AllSpace(g, space) && Spacing(gaps, n, space)
    requires n > 0 ==> gaps[0] != []
    ensures Spacing([g] + gaps, n + 1, space)
  {
    var all := [g] + gaps;
    forall k | 0 < k < |all|
      ensures all[k] == gaps[k - 1]
    {
    }
  }

  lemma TakeDrop<T>(t: seq<T>, n: nat)
    requires n <= |t|
    ensures t[..n] + t[n..] == t
  {
  }

  lemma HeadTail<T>(s: seq<T>)
    requires s != []
    ensures [s[0]] + s[1..] == s
  {
  }

  /** One more word, with the gap before it, in front of a layout. */
  lemma GapsCons(lead: string, w: string, ws: seq<string>, inner: seq<string>, space: char -> bool)
    returns (gaps: seq<string>)
    requires AllSpace(lead, space) && Spacing(inner, |ws|, space)
    requires ws != [] ==> inner[0] != []
    ensures gaps == [lead] + inner
    ensures Spacing(gaps, |ws| + 1, space)
    ensures JoinWith([w] + ws, gaps) == lead + (w + JoinWith(ws, inner))
  {
    gaps := [lead] + inner;
    SpacingCons(lead, inner, |ws|, space);
    JoinWithCons([w] + ws, gaps);
    assert gaps[1..] == inner && ([w] + ws)[1..] == ws;
  }

  /** Every text is its words laid out with whitespace gaps; the first gap is
      the leading whitespace. */
  lemma {:induction false} SplitOnSpacing(s: string, space: char -> bool) returns (gaps: seq<string>)
    ensures Spacing(gaps, |SplitOn(s, space)|, space)
    ensures JoinWith(SplitOn(s, space), gaps) == s
    ensures gaps[0] == Lead(s, space)
    decreases |s|
  {
    var t := SkipSpaces(s, space);
    var lead := Lead(s, space);
    LeadSplits(s, space);
    if t == [] {
      gaps := [lead];
      assert SplitOn(s, space) == [];
      assert s == lead;
    } else {
      var n := WordLength(t, space);
      var w, more := t[..n], t[n..];
      var inner := SplitOnSpacing(more, space);
      var ws := SplitOn(more, space);
      if ws != [] {
        assert more != [] && more[0] == t[n];
        LeadOfSpace(more, space);
      }
      gaps := GapsCons(lead, w, ws, inner, space);
      assert JoinWith(ws, inner) == more;
      TakeDrop(t, n);
      SplitUnfold(s, space);
    }
  }

  /** Python's `str.split()` without a separator. */
  function Split(s: string): seq<string>
  {
    SplitOn(s, IsSpace)
  }

  /** `str.split()` returns words that hold, in order, every character of the
      string that is not whitespace. */
  lemma SplitWords(s: string)
    ensures forall k :: 0 <= k < |Split(s)| ==> IsWordOf(Split(s)[k], IsSpace)
    ensures Flatten(Split(s)) == Filter(s, NonSpace(IsSpace))
  {
    SplitOnAreWords(s, IsSpace);
    SplitOnKeepsText(s, IsSpace);
  }

  /** `str.split()` undoes laying words out with any whitespace gaps. */
  lemma SplitJoin(words: seq<string>, gaps: seq<string>)
    requires Spacing(gaps, |words|, IsSpace)
    requires forall k :: 0 <= k < |words| ==> IsWordOf(words[k], IsSpace)
    ensures Split(JoinWith(words, gaps)) == words
  {
    SplitOnJoinWith(words, gaps, IsSpace);
  }

  /** `str.split()` is fixed everywhere: its result is the one sequence of
      words that, laid out with whitespace gaps, spells the text. */
  lemma SplitIff(s: string, words: seq<string>)
    ensures Split(s) == words <==>
      && (forall k :: 0 <= k < |words| ==> IsWordOf(words[k], IsSpace))
      && exists gaps :: Spacing(gaps, |words|, IsSpace) && JoinWith(words, gaps) == s
  {
    if Split(s) == words {
      SplitWords(s);
      var gaps := SplitOnSpacing(s, IsSpace);
      assert Spacing(gaps, |words|, IsSpace) && JoinWith(words, gaps) == s;
    }
    if exists gaps :: Spacing(gaps, |words|, IsSpace) && JoinWith(words, gaps) == s {
      if forall k :: 0 <= k < |words| ==> IsWordOf(words[k], IsSpace) {
        var gaps :| Spacing(gaps, |words|, IsSpace) && JoinWith(words, gaps) == s;
        SplitJoin(words, gaps);
      }
    }
  }

  // ---------------------------------------------------------------- district of a row

  /** The district of an address: `None` when the address is NaN, does not
      mention Seoul, has fewer than two words (`str.get(1)` gives None), or its
      second word is not a district of the boundary data. */
  function DistrictOf(address: Option<string>, coords: map<string, Coord>): Option<string>
  {
    if address.None? || !Contains(address.value, Seoul) then None
    else
      var words := Split(address.value);
      if |words| < 2 || words[1] !in coords then None else Some(words[1])
  }

  /** A row is kept exactly when its address mentions Seoul somewhere, has a
      second word, and that word is a known district; the district is that word. */
  lemma DistrictOfIff(address: Option<string>, coords: map<string, Coord>, d: string)
    ensures DistrictOf(address, coords) == Some(d)
        <==> && address.Some?
             && (exists i :: OccursAt(address.value, Seoul, i))
             && |Split(address.value)| >= 2
             && Split(address.value)[1] == d
             && d in coords
  {
    if address.Some? {
      ContainsIff(address.value, Seoul);
    }
  }

  /** The district is a single word: non-empty and free of whitespace. */
  lemma DistrictIsWord(address: Option<string>, coords: map<string, Coord>)
    requires DistrictOf(address, coords).Some?
    ensures IsWordOf(DistrictOf(address, coords).value, IsSpace)
  {
    SplitWords(address.value);
  }

  /** Worked example: the second word of a Seoul address is its district. */
  lemma DistrictOfSeoulAddress(coords: map<string, Coord>)
    requires "강남구" in coords
    ensures DistrictOf(Some("서울특별시 강남구 역삼동"), coords) == Some("강남구")
  {
    var words := ["서울특별시", "강남구", "역삼동"];
    var address := "서울특별시 강남구 역삼동";
    var gaps := ["", " ", " ", ""];
    assert address == JoinWith(words, gaps);
    SplitJoin(words, gaps);
    assert OccursAt(address, Seoul, 0);
    OccurrenceIsFound(address, Seoul, 0);
  }

  /** Worked example: an address outside Seoul has no district. */
  lemma DistrictOfOtherCity(coords: map<string, Coord>)
    ensures DistrictOf(Some("부산 해운대구 우동"), coords) == None
  {
    var address := "부산 해운대구 우동";
    assert forall k :: 0 <= k < |address| ==> address[k] != Seoul[0];
    MissingFirstCharacter(address, Seoul);
  }

  /** Worked example: `str.get(1)` on a one-word address finds nothing. */
  lemma DistrictOfOneWord(coords: map<string, Coord>)
    ensures DistrictOf(Some("서울특별시"), coords) == None
  {
    SplitSingleWord(Seoul, IsSpace);
  }

  // ---------------------------------------------------------------- totals per district

  /** A kept row: its district and its amount (`None` for a coerced NaN). */
  datatype Located = Located(district: string, amount: Option<int>)

  /** What one row contributes: its district and amount, or nothing. */
  function Here(r: Row, coords: map<string, Coord>): (here: seq<Located>)
    ensures |here| <= 1
  {
    match DistrictOf(r.address, coords)
    case None => []
    case Some(d) => [Located(d, r.amount)]
  }

  /** The kept rows in input order, each with its district. */
  function Locate(rows: seq<Row>, coords: map<string, Coord>): (located: seq<Located>)
    ensures forall k :: 0 <= k < |located| ==> located[k].district in coords
  {
    if rows == [] then [] else Here(rows[0], coords) + Locate(rows[1..], coords)
  }

  /** Every row with a district is kept, with its amount. */
  lemma {:induction false} LocateFinds(rows: seq<Row>, coords: map<string, Coord>, j: nat)
    requires j < |rows| && DistrictOf(rows[j].address, coords).Some?
    ensures Located(DistrictOf(rows[j].address, coords).value, rows[j].amount) in Locate(rows, coords)
  {
    if j > 0 {
      assert rows[1..][j - 1] == rows[j];
      LocateFinds(rows[1..], coords, j - 1);
    }
  }

  /** Every kept entry comes from a row with that district and amount. */
  lemma {:induction false} LocateOrigin(rows: seq<Row>, coords: map<string, Coord>, l: Located)
    requires l in Locate(rows, coords)
    ensures exists j :: 0 <= j < |rows| && DistrictOf(rows[j].address, coords) == Some(l.district)
                                        && rows[j].amount == l.amount
  {
    if l in Here(rows[0], coords) {
      assert DistrictOf(rows[0].address, coords) == Some(l.district) && rows[0].amount == l.amount;
    } else {
      LocateOrigin(rows[1..], coords, l);
      var j :| 0 <= j < |rows[1..]| && DistrictOf(rows[1..][j].address, coords) == Some(l.district)
                                    && rows[1..][j].amount == l.amount;
      assert rows[1..][j] == rows[j + 1];
    }
  }

  /** A district appears among the kept rows exactly when some row resolves to it. */
  lemma LocateKeeps(rows: seq<Row>, coords: map<string, Coord>, d: string)
    ensures (exists k :: 0 <= k < |Locate(rows, coords)| && Locate(rows, coords)[k].district == d)
        <==> (exists j :: 0 <= j < |rows| && DistrictOf(rows[j].address, coords) == Some(d))
  {
    var located := Locate(rows, coords);
    if exists k :: 0 <= k < |located| && located[k].district == d {
      var k :| 0 <= k < |located| && located[k].district == d;
      assert located[k] in located;
      LocateOrigin(rows, coords, located[k]);
    }
    if exists j :: 0 <= j < |rows| && DistrictOf(rows[j].address, coords) == Some(d) {
      var j :| 0 <= j < |rows| && DistrictOf(rows[j].address, coords) == Some(d);
      LocateFinds(rows, coords, j);
      var l := Located(d, rows[j].amount);
      var k :| 0 <= k < |located| && located[k] == l;
    }
  }

  /** Whether a row survives `dropna(subset=['자치구'])`. */
  predicate Resolves(r: Row, coords: map<string, Coord>)
  {
    DistrictOf(r.address, coords).Some?
  }

  /** The rows that survive, in input order, each kept once. */
  function Kept(rows: seq<Row>, coords: map<string, Coord>): seq<Row>
  {
    Filter(rows, r => Resolves(r, coords))
  }

  /** Locating the rows one at a time from the back gives the same list. */
  lemma {:induction false} LocateSnoc(rows: seq<Row>, coords: map<string, Coord>)
    requires rows != []
    ensures Locate(rows, coords) == Locate(rows[..|rows| - 1], coords) + Here(rows[|rows| - 1], coords)
  {
    var n := |rows|;
    if n == 1 {
      assert rows[..0] == [] && rows[1..] == [];
    } else {
      var tail := rows[1..];
      LocateSnoc(tail, coords);
      assert tail[..|tail| - 1] == rows[..n - 1][1..];
      assert tail[|tail| - 1] == rows[n - 1];
      assert rows[..n - 1][0] == rows[0];
    }
  }

  /** The entry a surviving row becomes: its district and its amount. */
  function LocatedOf(r: Row, coords: map<string, Coord>): Located
    requires Resolves(r, coords)
  {
    Located(DistrictOf(r.address, coords).value, r.amount)
  }

  /** `located` lists `kept` entry by entry: same length, entry k is row k located. */
  ghost predicate Aligned(located: seq<Located>, kept: seq<Row>, coords: map<string, Coord>)
  {
    |located| == |kept| &&
    forall k :: 0 <= k < |kept| ==> Resolves(kept[k], coords) && located[k] == LocatedOf(kept[k], coords)
  }

  lemma AlignedConcat(a: seq<Located>, ka: seq<Row>, b: seq<Located>, kb: seq<Row>, coords: map<string, Coord>)
    requires Aligned(a, ka, coords) && Aligned(b, kb, coords)
    ensures Aligned(a + b, ka + kb, coords)
  {
    forall k | |ka| <= k < |ka + kb|
      ensures Resolves((ka + kb)[k], coords) && (a + b)[k] == LocatedOf((ka + kb)[k], coords)
    {
      assert (ka + kb)[k] == kb[k - |ka|] && (a + b)[k] == b[k - |a|];
    }
  }

  /** One row: it is located exactly when it survives. */
  lemma HereAligned(r: Row, coords: map<string, Coord>)
    ensures Aligned(Here(r, coords), if Resolves(r, coords) then [r] else [], coords)
  {
  }

  lemma KeptCons(rows: seq<Row>, coords: map<string, Coord>)
    requires rows != []
    ensures Kept(rows, coords) == (if Resolves(rows[0], coords) then [rows[0]] else []) + Kept(rows[1..], coords)
  {
  }

  /**
   * Exactly the surviving rows are located, once each and in input order:
   * entry `k` is the `k`-th surviving row with its district and amount.
   */
  lemma {:induction false} LocateIsKept(rows: seq<Row>, coords: map<string, Coord>)
    ensures Aligned(Locate(rows, coords), Kept(rows, coords), coords)
  {
    if rows != [] {
      LocateIsKept(rows[1..], coords);
      KeptCons(rows, coords);
      HereAligned(rows[0], coords);
      AlignedConcat(Here(rows[0], coords), if Resolves(rows[0], coords) then [rows[0]] else [],
                  Locate(rows[1..], coords), Kept(rows[1..], coords), coords);
    }
  }

  /** NaN amounts are skipped by the group sum, so they count as nothing. */
  function Amount(a: Option<int>): int
  {
    if a.Some? then a.value else 0
  }

  /** What a row adds to district `d`'s total: its amount when it resolves to `d`. */
  function RowShare(r: Row, coords: map<string, Coord>, d: string): int
  {
    if DistrictOf(r.address, coords) == Some(d) then Amount(r.amount) else 0
  }

  /** Reference total of district `d`, read straight off the input rows. */
  function RowTotal(rows: seq<Row>, coords: map<string, Coord>, d: string): int
  {
    if rows == [] then 0
    else RowTotal(rows[..|rows| - 1], coords, d) + RowShare(rows[|rows| - 1], coords, d)
  }

  /** Reference grand total: the amounts of all rows that resolve to a district. */
  function RowSum(rows: seq<Row>, coords: map<string, Coord>): int
  {
    if rows == [] then 0
    else
      var last := rows[|rows| - 1];
      RowSum(rows[..|rows| - 1], coords) + (if Resolves(last, coords) then Amount(last.amount) else 0)
  }

  /** `groupby('자치구')[amount].sum()` for one district. */
  function Total(located: seq<Located>, d: string): int
  {
    if located == [] then 0
    else
      var last := located[|located| - 1];
      Total(located[..|located| - 1], d) + (if last.district == d then Amount(last.amount) else 0)
  }

  /** Totals of two stretches of kept rows add up. */
  lemma {:induction false} TotalConcat(a: seq<Located>, b: seq<Located>, d: string)
    ensures Total(a + b, d) == Total(a, d) + Total(b, d)
  {
    if b == [] {
      assert a + b == a;
    } else {
      TotalConcat(a, b[..|b| - 1], d);
      assert (a + b)[..|a + b| - 1] == a + b[..|b| - 1];
    }
  }

  /**
   * Each district's total over the located rows is the sum over the input rows
   * that resolve to it: every such row counts once, however many equal rows there are.
   */
  lemma {:induction false} LocateTotal(rows: seq<Row>, coords: map<string, Coord>, d: string)
    ensures Total(Locate(rows, coords), d) == RowTotal(rows, coords, d)
  {
    if rows != [] {
      var n := |rows|;
      LocateSnoc(rows, coords);
      LocateTotal(rows[..n - 1], coords, d);
      TotalConcat(Locate(rows[..n - 1], coords), Here(rows[n - 1], coords), d);
      HereTotal(rows[n - 1], coords, d);
    }
  }

  /** One row adds its share to the total. */
  lemma HereTotal(r: Row, coords: map<string, Coord>, d: string)
    ensures Total(Here(r, coords), d) == RowShare(r, coords, d)
  {
    var here := Here(r, coords);
    if here != [] {
      assert here[..0] == [];
    }
  }

  /** Two identical rows of 100 in one district give that district 200. */
  lemma TwoEqualRows(r: Row, coords: map<string, Coord>, d: string)
    requires DistrictOf(r.address, coords) == Some(d) && r.amount == Some(100)
    ensures Total(Locate([r, r], coords), d) == 200
  {
    LocateTotal([r, r], coords, d);
    assert RowShare(r, coords, d) == 100;
    assert [r][..0] == [];
    assert RowTotal([r], coords, d) == 100;
    assert [r, r][..1] == [r];
  }

  /** The amount column of the kept rows, NaN read as 0. */
  function Amounts(located: seq<Located>): seq<int>
  {
    seq(|located|, k requires 0 <= k < |located| => Amount(located[k].amount))
  }

  /** The district column of the kept rows. */
  function Names(located: seq<Located>): (names: seq<string>)
    ensures |names| == |located|
    ensures forall k :: 0 <= k < |located| ==> names[k] == located[k].district
  {
    seq(|located|, k requires 0 <= k < |located| => located[k].district)
  }

  function Sum(xs: seq<int>): int
  {
    if xs == [] then 0 else Sum(xs[..|xs| - 1]) + xs[|xs| - 1]
  }

  /** The totals of the given districts, in their order. */
  function TotalsOf(districts: seq<string>, located: seq<Located>): (totals: seq<int>)
    ensures |totals| == |districts|
  {
    seq(|districts|, k requires 0 <= k < |districts| => Total(located, districts[k]))
  }

  lemma TotalOfAbsent(located: seq<Located>, d: string)
    requires forall k :: 0 <= k < |located| ==> located[k].district != d
    ensures Total(located, d) == 0
  {
    if located != [] {
      TotalOfAbsent(located[..|located| - 1], d);
    }
  }

  /** Appending one kept row adds its amount to the sum of the totals of a
      list of distinct districts exactly when its district is in that list. */
  lemma {:induction false} SumTotalsAppend(districts: seq<string>, located: seq<Located>, l: Located)
    requires NoDuplicates(districts)
    ensures Sum(TotalsOf(districts, located + [l]))
         == Sum(TotalsOf(districts, located)) + (if l.district in districts then Amount(l.amount) else 0)
  {
    if districts != [] {
      var init, e := districts[..|districts| - 1], districts[|districts| - 1];
      SumTotalsAppend(init, located, l);
      assert (located + [l])[..|located|] == located;
      assert TotalsOf(districts, located + [l])[..|init|] == TotalsOf(init, located + [l]);
      assert TotalsOf(districts, located)[..|init|] == TotalsOf(init, located);
      assert l.district in districts <==> l.district in init || l.district == e;
      assert !(l.district in init && l.district == e);
    }
  }

  lemma NamesAppend(located: seq<Located>, l: Located)
    ensures Names(located + [l]) == Names(located) + [l.district]
  {
  }

  lemma DistinctAppend<T>(s: seq<T>, x: T)
    ensures Distinct(s + [x]) == if x in Distinct(s) then Distinct(s) else Distinct(s) + [x]
  {
    assert (s + [x])[..|s|] == s;
  }

  lemma TotalsOfAppend(districts: seq<string>, e: string, located: seq<Located>)
    ensures TotalsOf(districts + [e], located) == TotalsOf(districts, located) + [Total(located, e)]
  {
  }

  lemma SumAppend(xs: seq<int>, x: int)
    ensures Sum(xs + [x]) == Sum(xs) + x
  {
    assert (xs + [x])[..|xs|] == xs;
  }

  /** One more kept row adds its amount to the total of the amounts. */
  lemma SumAmountsAppend(init: seq<Located>, l: Located)
    ensures Sum(Amounts(init + [l])) == Sum(Amounts(init)) + Amount(l.amount)
  {
    assert Amounts(init + [l]) == Amounts(init) + [Amount(l.amount)];
    SumAppend(Amounts(init), Amount(l.amount));
  }

  /** The amount of all located rows is the amount of all input rows that resolve. */
  lemma {:induction false} LocateSum(rows: seq<Row>, coords: map<string, Coord>)
    ensures Sum(Amounts(Locate(rows, coords))) == RowSum(rows, coords)
  {
    if rows != [] {
      var n := |rows|;
      LocateSnoc(rows, coords);
      LocateSum(rows[..n - 1], coords);
      HereSum(Locate(rows[..n - 1], coords), rows[n - 1], coords);
    }
  }

  /** One more row adds its amount to the grand total when it survives. */
  lemma HereSum(init: seq<Located>, r: Row, coords: map<string, Coord>)
    ensures Sum(Amounts(init + Here(r, coords)))
         == Sum(Amounts(init)) + (if Resolves(r, coords) then Amount(r.amount) else 0)
  {
    var here := Here(r, coords);
    if here == [] {
      assert init + here == init;
    } else {
      assert here == [here[0]];
      SumAmountsAppend(init, here[0]);
    }
  }
  /** A district new to the list had no earlier rows. */
  lemma NewDistrictTotal(init: seq<Located>, l: Located)
    requires l.district !in Distinct(Names(init))
    ensures Total(init + [l], l.district) == Amount(l.amount)
  {
    forall k | 0 <= k < |init|
      ensures init[k].district != l.district
    {
      assert Names(init)[k] == init[k].district;
    }
    TotalOfAbsent(init, l.district);
    assert (init + [l])[..|init|] == init;
  }

  /** Grouping neither loses nor invents money: the district totals add up to
      the sum over all kept rows. */
  lemma {:induction false} TotalsAddUp(located: seq<Located>)
    ensures Sum(TotalsOf(Distinct(Names(located)), located)) == Sum(Amounts(located))
  {
    if located != [] {
      var init, l := located[..|located| - 1], located[|located| - 1];
      assert located == init + [l];
      TotalsAddUp(init);
      TotalsAddUpStep(init, l);
    }
  }

  /** One more kept row keeps the district totals adding up. */
  lemma TotalsAddUpStep(init: seq<Located>, l: Located)
    requires Sum(TotalsOf(Distinct(Names(init)), init)) == Sum(Amounts(init))
    ensures Sum(TotalsOf(Distinct(Names(init + [l])), init + [l])) == Sum(Amounts(init + [l]))
  {
    var before := Distinct(Names(init));
    SumAmountsAppend(init, l);
    SumTotalsAppend(before, init, l);
    DistinctNamesAppend(init, l);
    if l.district !in before {
      StepNewDistrict(init, l, before);
    }
  }

  /** The district list grows by the new row's district when it is new. */
  lemma DistinctNamesAppend(init: seq<Located>, l: Located)
    ensures l.district in Distinct(Names(init)) ==> Distinct(Names(init + [l])) == Distinct(Names(init))
    ensures l.district !in Distinct(Names(init)) ==> Distinct(Names(init + [l])) == Distinct(Names(init)) + [l.district]
  {
    NamesAppend(init, l);
    DistinctAppend(Names(init), l.district);
  }

  /** The sum of the totals grows by the new row's amount when its district is new. */
  lemma StepNewDistrict(init: seq<Located>, l: Located, before: seq<string>)
    requires before == Distinct(Names(init)) && l.district !in before
    ensures Sum(TotalsOf(before + [l.district], init + [l]))
         == Sum(TotalsOf(before, init + [l])) + Amount(l.amount)
  {
    TotalsOfAppend(before, l.district, init + [l]);
    SumAppend(TotalsOf(before, init + [l]), Total(init + [l], l.district));
    NewDistrictTotal(init, l);
  }

  // ---------------------------------------------------------------- normalisation

  /** A float result of the normalisation: a number, or NaN from 0/0. */
  datatype Ratio = Value(value: real) | NaN

  /** Float division as the source performs it; it is only ever asked 0/0 when
      the denominator is zero. */
  function Divide(numerator: int, denominator: int): (r: Ratio)
    requires denominator == 0 ==> numerator == 0
    ensures r.NaN? <==> denominator == 0
  {
    if denominator == 0 then NaN else Value(numerator as real / denominator as real)
  }

  function Min(xs: seq<int>): (m: int)
    requires xs != []
    ensures m in xs && forall k :: 0 <= k < |xs| ==> m <= xs[k]
  {
    if |xs| == 1 then xs[0]
    else
      var rest := Min(xs[1..]);
      assert rest in xs;
      if xs[0] <= rest then xs[0] else rest
  }

  function Max(xs: seq<int>): (m: int)
    requires xs != []
    ensures m in xs && forall k :: 0 <= k < |xs| ==> xs[k] <= m
  {
    if |xs| == 1 then xs[0]
    else
      var rest := Max(xs[1..]);
      assert rest in xs;
      if xs[0] >= rest then xs[0] else rest
  }

  /** `(total - min) / (max - min)` for every total, with no guard against
      `max == min` (app.py:313-320). */
  function Normalize(totals: seq<int>): (shares: seq<Ratio>)
    ensures |shares| == |totals|
  {
    if totals == [] then []
    else
      var lo, hi := Min(totals), Max(totals);
      seq(|totals|, k requires 0 <= k < |totals| => Share(totals[k], lo, hi))
  }

  /** The share of one total between the smallest and the largest. */
  function Share(total: int, lo: int, hi: int): Ratio
    requires lo <= total <= hi
  {
    Divide(total - lo, hi - lo)
  }

  /** With two different totals every share is a number. */
  lemma NormalizeValue(totals: seq<int>, i: nat)
    requires i < |totals| && Min(totals) < Max(totals)
    ensures Normalize(totals)[i] == Share(totals[i], Min(totals), Max(totals))
  {
  }

  /** Dividing a point of [0, w] by w. */
  lemma Scale(a: real, b: real, w: real)
    requires 0.0 <= a <= w && 0.0 <= b <= w && w > 0.0
    ensures 0.0 <= a / w <= 1.0
    ensures a / w == 0.0 <==> a == 0.0
    ensures a / w == 1.0 <==> a == w
    ensures a <= b ==> a / w <= b / w
    ensures a / w * w == a
  {
    assert a / w * w == a;
    if a <= b {
      assert b / w - a / w == (b - a) / w;
    }
  }

  /** A share mapped back onto the range of the totals. */
  function Unscale(share: real, lo: int, hi: int): real
  {
    lo as real + share * (hi - lo) as real
  }

  /** Between two different ends a share lies in [0, 1], is 0 exactly at the
      low end and 1 exactly at the high end, keeps the order of totals, and
      scales back to its total. */
  lemma ShareSpread(t: int, u: int, lo: int, hi: int)
    requires lo <= t <= hi && lo <= u <= hi && lo < hi
    ensures Share(t, lo, hi).Value? && Share(u, lo, hi).Value?
    ensures 0.0 <= Share(t, lo, hi).value <= 1.0
    ensures Share(t, lo, hi).value == 0.0 <==> t == lo
    ensures Share(t, lo, hi).value == 1.0 <==> t == hi
    ensures t <= u ==> Share(t, lo, hi).value <= Share(u, lo, hi).value
    ensures Unscale(Share(t, lo, hi).value, lo, hi) == t as real
  {
    var a, b, w := (t - lo) as real, (u - lo) as real, (hi - lo) as real;
    assert Share(t, lo, hi) == Value(a / w);
    assert Share(u, lo, hi) == Value(b / w);
    Scale(a, b, w);
  }

  /** With two different totals every share lies in [0, 1], the smallest
      totals get exactly 0, the largest exactly 1, the order of totals is kept,
      and undoing the scaling gives the total back. */
  lemma NormalizeSpread(totals: seq<int>, i: nat, j: nat)
    requires i < |totals| && j < |totals|
    requires Min(totals) < Max(totals)
    ensures Normalize(totals)[i].Value?
    ensures 0.0 <= Normalize(totals)[i].value <= 1.0
    ensures Normalize(totals)[i].value == 0.0 <==> totals[i] == Min(totals)
    ensures Normalize(totals)[i].value == 1.0 <==> totals[i] == Max(totals)
    ensures totals[i] <= totals[j] ==> Normalize(totals)[i].value <= Normalize(totals)[j].value
    ensures Unscale(Normalize(totals)[i].value, Min(totals), Max(totals)) == totals[i] as real
  {
    NormalizeValue(totals, i);
    NormalizeValue(totals, j);
    ShareSpread(totals[i], totals[j], Min(totals), Max(totals));
  }

  /** When all totals are equal (one district included) every share is NaN:
      the source divides 0 by 0. */
  lemma NormalizeFlat(totals: seq<int>)
    requires totals != [] && Min(totals) == Max(totals)
    ensures forall k :: 0 <= k < |totals| ==> Normalize(totals)[k] == NaN
  {
  }

  // ---------------------------------------------------------------- map data

  /** One row of `map_data`. */
  datatype MapRow = MapRow(district: string, lat: real, lon: real, total: int, share: Ratio)

  /** The districts of `map_data`, in order of first appearance. */
  function MapDistricts(rows: seq<Row>, coords: map<string, Coord>): (districts: seq<string>)
    ensures NoDuplicates(districts)
    ensures forall k :: 0 <= k < |districts| ==> districts[k] in coords
  {
    var located := Locate(rows, coords);
    var districts := Distinct(Names(located));
    assert forall k :: 0 <= k < |districts| ==> districts[k] in Names(located);
    districts
  }

  /** `map_data` before the overrides: one row per district in order of first
      appearance (drop_duplicates, then an inner merge that keeps left order),
      with the district's coordinates, its total and its normalised total. */
  function MapData(rows: seq<Row>, coords: map<string, Coord>): (data: seq<MapRow>)
    ensures |data| == |MapDistricts(rows, coords)|
  {
    var located := Locate(rows, coords);
    var districts := MapDistricts(rows, coords);
    var totals := TotalsOf(districts, located);
    var shares := Normalize(totals);
    seq(|districts|, k requires 0 <= k < |districts| =>
      var c := coords[districts[k]];
      MapRow(districts[k], c.lat, c.lon, totals[k], shares[k]))
  }

  /** Each row of `map_data` carries its district's coordinates and total, and
      the normalised total among all rows. */
  lemma MapDataRow(rows: seq<Row>, coords: map<string, Coord>, k: nat)
    requires k < |MapData(rows, coords)|
    ensures var r := MapData(rows, coords)[k];
      && r.district == MapDistricts(rows, coords)[k]
      && r.district in coords
      && Coord(r.lat, r.lon) == coords[r.district]
      && r.total == Total(Locate(rows, coords), r.district)
      && r.total == RowTotal(rows, coords, r.district)
      && r.share == Normalize(TotalsOf(MapDistricts(rows, coords), Locate(rows, coords)))[k]
  {
    LocateTotal(rows, coords, MapDistricts(rows, coords)[k]);
  }

  /** No district has two rows in `map_data`. */
  lemma MapDataDistinct(rows: seq<Row>, coords: map<string, Coord>)
    ensures var data := MapData(rows, coords);
      forall i, j :: 0 <= i < j < |data| ==> data[i].district != data[j].district
  {
    var data, districts := MapData(rows, coords), MapDistricts(rows, coords);
    forall i, j | 0 <= i < j < |data|
      ensures data[i].district != data[j].district
    {
      MapDataRow(rows, coords, i);
      MapDataRow(rows, coords, j);
    }
  }

  /** A district is among the distinct names exactly when some located row names it. */
  lemma DistinctNamesOf(located: seq<Located>, d: string)
    ensures d in Distinct(Names(located)) <==> exists k :: 0 <= k < |located| && located[k].district == d
  {
    var names := Names(located);
    var districts := Distinct(names);
    if exists k :: 0 <= k < |located| && located[k].district == d {
      var k :| 0 <= k < |located| && located[k].district == d;
      assert names[k] == d && names[k] in districts;
    }
    if d in districts {
      var i :| 0 <= i < |districts| && districts[i] == d;
      assert districts[i] in names;
      var k :| 0 <= k < |names| && names[k] == d;
      assert located[k].district == d;
    }
  }

  /** The districts of `map_data` are the districts some located row names. */
  lemma MapDistrictsOf(rows: seq<Row>, coords: map<string, Coord>, d: string)
    ensures d in MapDistricts(rows, coords)
        <==> exists k :: 0 <= k < |Locate(rows, coords)| && Locate(rows, coords)[k].district == d
  {
    DistinctNamesOf(Locate(rows, coords), d);
  }

  lemma MapDataOf(rows: seq<Row>, coords: map<string, Coord>, d: string)
    ensures (exists k :: 0 <= k < |MapData(rows, coords)| && MapData(rows, coords)[k].district == d)
        <==> d in MapDistricts(rows, coords)
  {
    var data, districts := MapData(rows, coords), MapDistricts(rows, coords);
    if d in districts {
      var i :| 0 <= i < |districts| && districts[i] == d;
      MapDataRow(rows, coords, i);
    }
    if exists k :: 0 <= k < |data| && data[k].district == d {
      var k :| 0 <= k < |data| && data[k].district == d;
      MapDataRow(rows, coords, k);
    }
  }

  /** `map_data` has a row for a district exactly when some row resolves to it. */
  lemma MapDataCovers(rows: seq<Row>, coords: map<string, Coord>, d: string)
    ensures var data := MapData(rows, coords);
      (exists k :: 0 <= k < |data| && data[k].district == d)
      <==> (exists j :: 0 <= j < |rows| && DistrictOf(rows[j].address, coords) == Some(d))
  {
    MapDataOf(rows, coords, d);
    MapDistrictsOf(rows, coords, d);
    LocateKeeps(rows, coords, d);
  }

  /** The totals of `map_data` add up to the amounts of all kept rows. */
  lemma MapDataSum(rows: seq<Row>, coords: map<string, Coord>)
    ensures var data := MapData(rows, coords);
      && Sum(seq(|data|, k requires 0 <= k < |data| => data[k].total)) == Sum(Amounts(Locate(rows, coords)))
      && Sum(seq(|data|, k requires 0 <= k < |data| => data[k].total)) == RowSum(rows, coords)
  {
    var data, located := MapData(rows, coords), Locate(rows, coords);
    TotalsAddUp(located);
    LocateSum(rows, coords);
    assert seq(|data|, k requires 0 <= k < |data| => data[k].total)
        == TotalsOf(MapDistricts(rows, coords), located);
  }

  // ---------------------------------------------------------------- coordinate overrides

  const JungGu := "중구"
  const JungGuCoord := Coord(37.5637, 126.9970)
  const GangseoGu := "강서구"
  const GangseoGuCoord := Coord(37.5510, 126.8495)

  datatype Column = Lat | Lon

  /** `map_data.loc[map_data['자치구'] == district, column] = v`. */
  function Assign(data: seq<MapRow>, district: string, column: Column, v: real): (r: seq<MapRow>)
    ensures |r| == |data|
  {
    seq(|data|, k requires 0 <= k < |data| =>
      if data[k].district != district then data[k]
      else if column == Lat then data[k].(lat := v)
      else data[k].(lon := v))
  }

  /** The four assignments of app.py:328-336, in order. */
  function WithOverrides(data: seq<MapRow>): seq<MapRow>
  {
    var a := Assign(data, JungGu, Lat, JungGuCoord.lat);
    var b := Assign(a, JungGu, Lon, JungGuCoord.lon);
    var c := Assign(b, GangseoGu, Lat, GangseoGuCoord.lat);
    Assign(c, GangseoGu, Lon, GangseoGuCoord.lon)
  }

  /** After the overrides 중구 and 강서구 sit at their fixed coordinates
      whatever was computed; every other row keeps its coordinates, and no row
      changes its district, total or share. */
  lemma OverridesWin(data: seq<MapRow>, k: nat)
    requires k < |data|
    ensures |WithOverrides(data)| == |data|
    ensures var r := WithOverrides(data)[k];
      && r.district == data[k].district && r.total == data[k].total && r.share == data[k].share
      && (data[k].district == JungGu ==> Coord(r.lat, r.lon) == JungGuCoord)
      && (data[k].district == GangseoGu ==> Coord(r.lat, r.lon) == GangseoGuCoord)
      && ((data[k].district != JungGu && data[k].district != GangseoGu)
          ==> r.lat == data[k].lat && r.lon == data[k].lon)
  {
    assert JungGu != GangseoGu by {
      assert JungGu[0] != GangseoGu[0];
    }
  }

  /** The `.loc` assignment, row by row, in place. */
  method AssignWhere(data: array<MapRow>, district: string, column: Column, v: real)
    modifies data
    ensures data[..] == Assign(old(data[..]), district, column, v)
  {
    ghost var before := data[..];
    for k := 0 to data.Length
      invariant data[..k] == Assign(before, district, column, v)[..k]
      invariant forall j :: k <= j < data.Length ==> data[j] == before[j]
    {
      if data[k].district == district {
        if column == Lat {
          data[k] := data[k].(lat := v);
        } else {
          data[k] := data[k].(lon := v);
        }
      }
    }
  }

  /** app.py:324-336: the two fixed coordinate pairs written into `map_data`. */
  method ApplyOverrides(data: array<MapRow>)
    modifies data
    ensures data[..] == WithOverrides(old(data[..]))
  {
    AssignWhere(data, JungGu, Lat, JungGuCoord.lat);
    AssignWhere(data, JungGu, Lon, JungGuCoord.lon);
    AssignWhere(data, GangseoGu, Lat, GangseoGuCoord.lat);
    AssignWhere(data, GangseoGu, Lon, GangseoGuCoord.lon);
  }

  /** The map block: build `map_data` from the filtered rows, then patch it. */
  method BuildMapData(rows: seq<Row>, coords: map<string, Coord>) returns (data: array<MapRow>)
    ensures fresh(data)
    ensures data[..] == WithOverrides(MapData(rows, coords))
  {
    var computed := MapData(rows, coords);
    data := new MapRow[|computed|](k requires 0 <= k < |computed| => computed[k]);
    assert data[..] == computed;
    ApplyOverrides(data);
  }
}

=== FILE: enrichment.dfy ===
/** The end of the business-status lookup (app.py:383-447): the business
    numbers of the filtered rows are looked up, their dashes are stripped,
    `status_info` is turned into a table (`status_df`) and left-merged onto
    the rows. */
module Enrichment {
  import opened Basics
  import opened Records
  import opened Registry

  /** `str(x).replace('-', '')` on the business-number column; a missing
      number is NaN, whose `str` is "nan". */
  function Key(businessNo: Option<string>): (key: string)
    ensures forall i :: 0 <= i < |key| ==> key[i] != '-'
  {
    if businessNo.None? then "nan"
    else
      StripDashSpec(businessNo.value);
      StripDash(businessNo.value)
  }

  /** Keys are already stripped: stripping them again changes nothing. */
  lemma KeyIsStripped(businessNo: Option<string>)
    ensures StripDash(Key(businessNo)) == Key(businessNo)
  {
    if businessNo.Some? {
      StripDashSpec(businessNo.value);
    } else {
      FilterAll("nan", NotDash);
    }
  }

  /** The row as `original_df` holds it after the key column is rewritten. */
  function Normalized(r: Row): Row
  {
    r.(businessNo := Some(Key(r.businessNo)))
  }

  /** A row of the merged table: the row and its status columns, `None`
      standing for the NaN that an unmatched row gets. */
  datatype Enriched = Enriched(row: Row, status: Option<Status>)

  /** One row of `status_df`: the key and its two status columns. */
  datatype StatusRow = StatusRow(key: string, status: Status)

  /** The table lists the dictionary: one row per key, each with the key's
      value (`from_dict(..., orient='index').reset_index()`). */
  ghost predicate Lists(table: seq<StatusRow>, info: map<string, Status>)
  {
    && (forall i, j :: 0 <= i < j < |table| ==> table[i].key != table[j].key)
    && (forall i :: 0 <= i < |table| ==> table[i].key in info && info[table[i].key] == table[i].status)
    && (forall k :: k in info ==> exists i :: 0 <= i < |table| && table[i].key == k)
  }

  /** The reference: each row, in order, with the status recorded for its key. */
  function Annotate(rows: seq<Row>, info: map<string, Status>): seq<Enriched>
  {
    seq(|rows|, i requires 0 <= i < |rows| => Enriched(Normalized(rows[i]), StatusFor(info, rows[i])))
  }

  function HasKey(key: string): StatusRow -> bool
  {
    (s: StatusRow) => s.key == key
  }

  /** `pd.merge(left, right, on='사업자번호', how='left')`: every left row, in
      order, once per matching right row, or once with empty status columns
      when nothing matches. */
  function LeftJoin(rows: seq<Row>, table: seq<StatusRow>): seq<Enriched>
  {
    if rows == [] then []
    else
      var r := Normalized(rows[0]);
      var matches := Filter(table, HasKey(Key(rows[0].businessNo)));
      (if matches == [] then [Enriched(r, None)]
       else seq(|matches|, j requires 0 <= j < |matches| => Enriched(r, Some(matches[j].status))))
      + LeftJoin(rows[1..], table)
  }

  /** No row of a table carries a key the dictionary lacks. */
  lemma NoMatch(table: seq<StatusRow>, info: map<string, Status>, key: string)
    requires Lists(table, info) && key !in info
    ensures Filter(table, HasKey(key)) == []
  {
    forall x | x in table
      ensures !HasKey(key)(x)
    {
      var i :| 0 <= i < |table| && table[i] == x;
    }
    FilterNone(table, HasKey(key));
  }

  /** The only row of a table with a given key is the one match. */
  lemma {:induction false} OneMatch(table: seq<StatusRow>, key: string, i: nat)
    requires i < |table| && table[i].key == key
    requires forall j :: 0 <= j < |table| && j != i ==> table[j].key != key
    ensures Filter(table, HasKey(key)) == [table[i]]
  {
    if i == 0 {
      forall x | x in table[1..]
        ensures !HasKey(key)(x)
      {
        var j :| 0 <= j < |table[1..]| && table[1..][j] == x;
        assert table[j + 1] == x;
      }
      FilterNone(table[1..], HasKey(key));
    } else {
      forall j | 0 <= j < |table[1..]| && j != i - 1
        ensures table[1..][j].key != key
      {
        assert table[1..][j] == table[j + 1];
      }
      OneMatch(table[1..], key, i - 1);
    }
  }

  /** A table with unique keys that lists the dictionary matches a key once
      when the key is in the dictionary, and never otherwise. */
  lemma MatchesOfKey(table: seq<StatusRow>, info: map<string, Status>, key: string)
    requires Lists(table, info)
    ensures key !in info ==> Filter(table, HasKey(key)) == []
    ensures key in info ==> Filter(table, HasKey(key)) == [StatusRow(key, info[key])]
  {
    if key !in info {
      NoMatch(table, info, key);
    } else {
      var i :| 0 <= i < |table| && table[i].key == key;
      forall j | 0 <= j < |table| && j != i
        ensures table[j].key != key
      {
        if j < i {
          assert table[j].key != table[i].key;
        } else {
          assert table[i].key != table[j].key;
        }
      }
      OneMatch(table, key, i);
    }
  }

  /** The status a row gets from the dictionary. */
  function StatusFor(info: map<string, Status>, r: Row): Option<Status>
  {
    var key := Key(r.businessNo);
    if key in info then Some(info[key]) else None
  }

  lemma AnnotateCons(rows: seq<Row>, info: map<string, Status>)
    requires rows != []
    ensures Annotate(rows, info)
         == [Enriched(Normalized(rows[0]), StatusFor(info, rows[0]))] + Annotate(rows[1..], info)
  {
  }

  lemma LeftJoinCons(rows: seq<Row>, table: seq<StatusRow>, info: map<string, Status>)
    requires rows != [] && Lists(table, info)
    ensures LeftJoin(rows, table)
         == [Enriched(Normalized(rows[0]), StatusFor(info, rows[0]))] + LeftJoin(rows[1..], table)
  {
    var key, r := Key(rows[0].businessNo), Normalized(rows[0]);
    var matches := Filter(table, HasKey(key));
    MatchesOfKey(table, info, key);
    if key in info {
      assert matches == [StatusRow(key, info[key])];
      assert seq(|matches|, j requires 0 <= j < |matches| => Enriched(r, Some(matches[j].status)))
          == [Enriched(r, Some(info[key]))];
    } else {
      assert matches == [];
    }
  }

  /** Because `status_info` has one entry per key, the left merge keeps every
      original row exactly once, in order; a row whose key is in
      `status_info` gets that status, every other row gets empty columns. */
  lemma {:induction false} JoinIsAnnotate(rows: seq<Row>, table: seq<StatusRow>, info: map<string, Status>)
    requires Lists(table, info)
    ensures LeftJoin(rows, table) == Annotate(rows, info)
  {
    if rows != [] {
      LeftJoinCons(rows, table, info);
      AnnotateCons(rows, info);
      JoinIsAnnotate(rows[1..], table, info);
    }
  }

  /** The merged rows are the original rows with the key rewritten, and the
      status of a row is present exactly when its key was recorded. */
  lemma AnnotateSpec(rows: seq<Row>, info: map<string, Status>, i: nat)
    requires i < |rows|
    ensures |Annotate(rows, info)| == |rows|
    ensures Annotate(rows, info)[i].row == rows[i].(businessNo := Some(Key(rows[i].businessNo)))
    ensures Annotate(rows, info)[i].status.Some? <==> Key(rows[i].businessNo) in info
    ensures Annotate(rows, info)[i].status.Some?
            ==> Annotate(rows, info)[i].status.value == info[Key(rows[i].businessNo)]
  {
  }

  /** The table lists the dictionary restricted to the keys in `done`. */
  ghost predicate ListsPart(table: seq<StatusRow>, info: map<string, Status>, done: set<string>)
  {
    && (forall i, j :: 0 <= i < j < |table| ==> table[i].key != table[j].key)
    && (forall i :: 0 <= i < |table| ==> table[i].key in done && table[i].key in info && info[table[i].key] == table[i].status)
    && (forall k :: k in done ==> exists i :: 0 <= i < |table| && table[i].key == k)
  }

  /** Appending the row of a key not listed yet lists one key more. */
  lemma ListsExtend(table: seq<StatusRow>, info: map<string, Status>, done: set<string>, k: string)
    requires ListsPart(table, info, done) && k in info && k !in done
    ensures ListsPart(table + [StatusRow(k, info[k])], info, done + {k})
  {
    var next := table + [StatusRow(k, info[k])];
    forall k' | k' in done + {k}
      ensures exists i :: 0 <= i < |next| && next[i].key == k'
    {
      if k' == k {
        assert next[|table|].key == k';
      } else {
        var i :| 0 <= i < |table| && table[i].key == k';
        assert next[i].key == k';
      }
    }
  }

  /** `status_df`, built from the dictionary in some order. */
  method TableOf(info: map<string, Status>) returns (table: seq<StatusRow>)
    ensures Lists(table, info)
  {
    table := [];
    var left := info.Keys;
    ghost var done: set<string> := {};
    while left != {}
      invariant left <= info.Keys && done == info.Keys - left
      invariant ListsPart(table, info, done)
      decreases |left|
    {
      var k :| k in left;
      ListsExtend(table, info, done, k);
      table := table + [StatusRow(k, info[k])];
      left := left - {k};
      done := done + {k};
    }
    assert done == info.Keys;
    ListsAll(table, info);
  }

  /** Listing every key of the dictionary is listing the dictionary. */
  lemma ListsAll(table: seq<StatusRow>, info: map<string, Status>)
    requires ListsPart(table, info, info.Keys)
    ensures Lists(table, info)
  {
  }

  // ---------------------------------------------------------------- the merge as written

  /** app.py:441-445 as written: `from_dict({}, orient='index').reset_index()`
      has a single column, so naming three columns raises a ValueError when
      no status was recorded (`None`); the outer handler then swallows it and
      no merged table is offered. */
  function MergeAsWritten(rows: seq<Row>, info: map<string, Status>, table: seq<StatusRow>): (merged: Option<seq<Enriched>>)
    requires Lists(table, info)
    ensures merged.Some? <==> |info| > 0
    ensures merged.Some? ==> merged.value == Annotate(rows, info)
  {
    if |info| == 0 then None
    else
      JoinIsAnnotate(rows, table, info);
      Some(LeftJoin(rows, table))
  }

  lemma OneNumber(r: Row)
    requires r.businessNo.Some?
    ensures BusinessNumbers([r]) == [r.businessNo.value]
  {
    assert [r][..0] == [];
    assert Present([r]) == [r.businessNo.value];
    assert [r.businessNo.value][..0] == [];
  }

  lemma OneChunk(ids: seq<string>)
    requires 1 <= |ids| <= BatchSize
    ensures Chunks(ids) == [ids]
  {
    assert ChunkCount(|ids|) == 1;
    assert Chunks(ids)[0] == ids[0..|ids|] == ids;
  }

  /** Three failed requests end a chunk's loop without recording anything. */
  lemma ThreeHttpErrors(chunk: seq<string>, st: Lookup)
    ensures RunChunk(chunk, Try(st, false, 0), [HttpErr, HttpErr, HttpErr]).Settled?
    ensures RunChunk(chunk, Try(st, false, 0), [HttpErr, HttpErr, HttpErr]).rest == []
    ensures !RunChunk(chunk, Try(st, false, 0), [HttpErr, HttpErr, HttpErr]).t.success
    ensures RunChunk(chunk, Try(st, false, 0), [HttpErr, HttpErr, HttpErr]).t.st.statusInfo == st.statusInfo
  {
    var script := [HttpErr, HttpErr, HttpErr];
    var t0 := Try(st, false, 0);
    var t1 := Step(t0, chunk, HttpErr);
    var t2 := Step(t1, chunk, HttpErr);
    var t3 := Step(t2, chunk, HttpErr);
    assert script[1..] == [HttpErr, HttpErr] && script[1..][1..] == [HttpErr] && script[1..][1..][1..] == [];
    ChunkStep(chunk, t0, script);
    ChunkStep(chunk, t1, script[1..]);
    ChunkStep(chunk, t2, script[1..][1..]);
    assert RunChunk(chunk, t3, []) == Settled(t3, []);
  }

  /** A lookup of one chunk whose three requests fail finishes with nothing
      recorded and the chunk warned about. */
  lemma FailedSingleChunk(ids: seq<string>)
    ensures Run([ids], Start, [HttpErr, HttpErr, HttpErr]).Finished?
    ensures Run([ids], Start, [HttpErr, HttpErr, HttpErr]).st.statusInfo == map[]
    ensures Run([ids], Start, [HttpErr, HttpErr, HttpErr]).st.failed == [ids]
  {
    ThreeHttpErrors(ids, Start);
    var o := RunChunk(ids, Try(Start, false, 0), [HttpErr, HttpErr, HttpErr]);
    ChunkKeepsCounters(ids, Try(Start, false, 0), [HttpErr, HttpErr, HttpErr]);
    FinishFields(o.t.st, ids, false);
    RunAfterChunk([ids], 0, Start, [HttpErr, HttpErr, HttpErr], o.t, []);
    assert [ids][0..] == [ids] && [ids][1..] == [];
  }

  /** Every request of the only chunk fails with a status code: the lookup
      finishes, nothing is recorded, and the merge as written gives no table
      although there is a row to report on. */
  lemma FailedLookupLosesRows(r: Row, table: seq<StatusRow>)
    requires r.businessNo.Some? && Lists(table, map[])
    ensures var outcome := Run(Chunks(BusinessNumbers([r])), Start, [HttpErr, HttpErr, HttpErr]);
      && outcome.Finished?
      && outcome.st.statusInfo == map[]
      && outcome.st.failed == [[r.businessNo.value]]
      && MergeAsWritten([r], outcome.st.statusInfo, table) == None
  {
    OneNumber(r);
    OneChunk([r.businessNo.value]);
    FailedSingleChunk([r.businessNo.value]);
  }

  /** The merge the code evidently intends: a left merge with whatever was
      recorded, an empty table included. Every row comes out once, in order,
      and with no status recorded every status column is empty. */
  lemma MergeWithNothingRecorded(rows: seq<Row>, table: seq<StatusRow>, i: nat)
    requires Lists(table, map[]) && i < |rows|
    ensures |LeftJoin(rows, table)| == |rows|
    ensures LeftJoin(rows, table)[i] == Enriched(Normalized(rows[i]), None)
  {
    JoinIsAnnotate(rows, table, map[]);
  }

  // ---------------------------------------------------------------- the whole lookup

  /** app.py:383-447 with the merge corrected: look up the distinct business
      numbers, then left-merge the recorded statuses onto the rows. `None`
      when the script runs out while a chunk still loops. */
  method CheckClosures(rows: seq<Row>, script: seq<Reply>) returns (merged: Option<seq<Enriched>>)
    ensures var outcome := Run(Chunks(BusinessNumbers(rows)), Start, script);
      && (outcome.Stalled? ==> merged == None)
      && (outcome.Finished? ==> merged == Some(Annotate(rows, outcome.st.statusInfo)))
  {
    var numbers := BusinessNumbers(rows);
    var outcome := LookUp(numbers, script);
    if outcome.Stalled? {
      return None;
    }
    var table := TableOf(outcome.st.statusInfo);
    JoinIsAnnotate(rows, table, outcome.st.statusInfo);
    merged := Some(LeftJoin(rows, table));
  }
}

=== FILE: records.dfy ===
/** The loan-guarantee rows the dashboard works on, and the sidebar filter
    chain of app.py:101-111 (three membership filters switched off by the
    '전체 선택' choice, then an inclusive range on the execution date). */
module Records {
  import opened Basics

  /** A cell of a text or numeric column after pandas has read it: text, a
      number, or NaN. */
  datatype Cell = Text(text: string) | Number(number: int) | Missing

  /** A calendar day; the execution date `기표일자` is compared day by day. */
  datatype Date = Date(year: int, month: int, day: int)

  /** Timestamp comparison `a <= b` on two days. */
  predicate OnOrBefore(a: Date, b: Date)
  {
    || a.year < b.year
    || (a.year == b.year && a.month < b.month)
    || (a.year == b.year && a.month == b.month && a.day <= b.day)
  }

  predicate ValidDate(d: Date)
  {
    1 <= d.month <= 12 && 1 <= d.day <= 31
  }

  /** The day as one number, yyyymmdd. */
  function DayNumber(d: Date): int
  {
    d.year * 10000 + d.month * 100 + d.day
  }

  /** On real calendar days the comparison is the order of yyyymmdd numbers. */
  lemma OnOrBeforeIsDayOrder(a: Date, b: Date)
    requires ValidDate(a) && ValidDate(b)
    ensures OnOrBefore(a, b) <==> DayNumber(a) <= DayNumber(b)
  {
    if a.year < b.year {
      assert a.year * 10000 + 10000 <= b.year * 10000;
    } else if a.year > b.year {
      assert b.year * 10000 + 10000 <= a.year * 10000;
    }
  }

  /** One row of the uploaded sheet, restricted to the columns the core reads:
      `은행구분`, `대분류업종명`, `기표일자` (NaT as `None`), `사업장주소`,
      `실행/해지금액(원)` (coerced to NaN as `None`), `사업자번호` and `주민번호`. */
  datatype Row = Row(
    bank: Cell,
    industry: Cell,
    date: Option<Date>,
    address: Option<string>,
    amount: Option<int>,
    businessNo: Option<string>,
    residentNo: string)

  /** The multiselect choice that switches a filter off. */
  const SelectAll: Cell := Text("전체 선택")

  /** `기표년도`: the year of the execution date, NaN for NaT. */
  function YearOf(r: Row): Cell
  {
    if r.date.Some? then Number(r.date.value.year) else Missing
  }

  /** A membership filter lets `c` through: the selection holds the sentinel
      or holds `c` itself (`isin`, under which NaN matches NaN). */
  predicate Wanted(selection: seq<Cell>, c: Cell)
  {
    SelectAll in selection || c in selection
  }

  /** Both ends inclusive; a NaT date compares false with everything. */
  predicate InDateRange(r: Row, start: Date, end: Date)
  {
    r.date.Some? && OnOrBefore(start, r.date.value) && OnOrBefore(r.date.value, end)
  }

  /** What the whole chain asks of a row, stated at once. */
  predicate Selected(r: Row, banks: seq<Cell>, years: seq<Cell>, industries: seq<Cell>, start: Date, end: Date)
  {
    && Wanted(banks, r.bank)
    && Wanted(years, YearOf(r))
    && Wanted(industries, r.industry)
    && InDateRange(r, start, end)
  }

  /** `df[df[column].isin(selection)]`. */
  function IsIn(rows: seq<Row>, selection: seq<Cell>, column: Row -> Cell): seq<Row>
  {
    Filter(rows, r => column(r) in selection)
  }

  /** The membership test of one sidebar filter, sentinel included. */
  function WantedBy(selection: seq<Cell>, column: Row -> Cell): Row -> bool
  {
    r => Wanted(selection, column(r))
  }

  /** One guarded membership step of the chain filters by `WantedBy`. */
  lemma MembershipStep(rows: seq<Row>, selection: seq<Cell>, column: Row -> Cell)
    ensures (if SelectAll in selection then rows else IsIn(rows, selection, column))
         == Filter(rows, WantedBy(selection, column))
  {
    if SelectAll in selection {
      FilterAll(rows, WantedBy(selection, column));
    } else {
      FilterAgree(rows, r => column(r) in selection, WantedBy(selection, column));
    }
  }

  /** `Selected` as a filter predicate. */
  function SelectedBy(banks: seq<Cell>, years: seq<Cell>, industries: seq<Cell>, start: Date, end: Date): Row -> bool
  {
    r => Selected(r, banks, years, industries, start, end)
  }

  /** `InDateRange` as a filter predicate. */
  function InRange(start: Date, end: Date): Row -> bool
  {
    r => InDateRange(r, start, end)
  }

  /** Applying the four steps one after another keeps exactly the selected rows. */
  lemma ChainIsSelection(rows: seq<Row>, banks: seq<Cell>, years: seq<Cell>, industries: seq<Cell>,
                         start: Date, end: Date, bankOf: Row -> Cell, industryOf: Row -> Cell)
    requires forall r :: bankOf(r) == r.bank && industryOf(r) == r.industry
    ensures Filter(Filter(Filter(Filter(rows, WantedBy(banks, bankOf)), WantedBy(years, YearOf)),
                          WantedBy(industries, industryOf)), InRange(start, end))
         == Filter(rows, SelectedBy(banks, years, industries, start, end))
  {
    var b, y, i := WantedBy(banks, bankOf), WantedBy(years, YearOf), WantedBy(industries, industryOf);
    var chain := And(And(And(b, y), i), InRange(start, end));
    FilterTwice(rows, b, y);
    FilterTwice(rows, And(b, y), i);
    FilterTwice(rows, And(And(b, y), i), InRange(start, end));
    ChainAgrees(banks, years, industries, start, end, bankOf, industryOf);
    FilterAgree(rows, chain, SelectedBy(banks, years, industries, start, end));
  }

  /** The conjunction of the four steps is `Selected`, row by row. */
  lemma ChainAgrees(banks: seq<Cell>, years: seq<Cell>, industries: seq<Cell>,
                    start: Date, end: Date, bankOf: Row -> Cell, industryOf: Row -> Cell)
    requires forall r :: bankOf(r) == r.bank && industryOf(r) == r.industry
    ensures forall r :: And(And(And(WantedBy(banks, bankOf), WantedBy(years, YearOf)), WantedBy(industries, industryOf)),
                            InRange(start, end))(r)
                     == SelectedBy(banks, years, industries, start, end)(r)
  {
  }

  /** The filter chain, one reassignment of `filtered_df` per step. */
  method FilterRecords(rows: seq<Row>, banks: seq<Cell>, years: seq<Cell>, industries: seq<Cell>, start: Date, end: Date)
    returns (filtered: seq<Row>)
    ensures filtered == Filter(rows, SelectedBy(banks, years, industries, start, end))
    ensures IsSubsequence(filtered, rows)
    ensures forall r :: multiset(filtered)[r]
                     == if Selected(r, banks, years, industries, start, end) then multiset(rows)[r] else 0
    ensures SelectAll in banks && SelectAll in years && SelectAll in industries
            ==> filtered == Filter(rows, InRange(start, end))
  {
    var bankOf, industryOf := (r: Row) => r.bank, (r: Row) => r.industry;

    filtered := rows;
    if SelectAll !in banks {
      filtered := IsIn(filtered, banks, bankOf);
    }
    MembershipStep(rows, banks, bankOf);
    ghost var stage1 := filtered;

    if SelectAll !in years {
      filtered := IsIn(filtered, years, YearOf);
    }
    MembershipStep(stage1, years, YearOf);
    ghost var stage2 := filtered;

    if SelectAll !in industries {
      filtered := IsIn(filtered, industries, industryOf);
    }
    MembershipStep(stage2, industries, industryOf);

    filtered := Filter(filtered, InRange(start, end));

    var selected := SelectedBy(banks, years, industries, start, end);
    ChainIsSelection(rows, banks, years, industries, start, end, bankOf, industryOf);
    FilterIsSubsequence(rows, selected);
    forall r | true
      ensures multiset(filtered)[r] == if selected(r) then multiset(rows)[r] else 0
    {
      FilterCount(rows, selected, r);
    }
    if SelectAll in banks && SelectAll in years && SelectAll in industries {
      FilterAgree(rows, selected, InRange(start, end));
    }
  }
}

=== FILE: registry.dfy ===
/** The business-status lookup of app.py:383-432: the distinct business
    numbers are sent to the national tax service in batches of 100; each
    batch is retried up to three times, and every entry of a successful reply
    is written into `status_info`.

    The network is a scripted sequence of replies, one per request, and
    `time.sleep(RETRY_DELAY)` is a counter of sleeps. The real loop can spin
    forever (a 200 reply without 'data' changes nothing); in the model this
    shows as the script running out, and the run is then `Stalled`.

    Only `ConnectionError` and `Timeout` are caught by the inner `except`.
    A 200 reply whose body is not JSON, a `data` value that is not a list of
    dicts, or any other `requests` error (too many redirects, a broken chunked
    body, an invalid URL) raises past it to the outer handler at app.py:469,
    which ends the lookup and discards the partial `status_info`. Such
    outcomes are not part of `Reply`. */
module Registry {
  import opened Basics
  import opened Records

  const MaxRetries := 3
  const BatchSize := 100
  /** Seconds per sleep; the model counts sleeps. */
  const RetryDelay := 5
  /** The default the source fills in for a missing status or closing date. */
  const NoInfo := "정보 없음"

  // ---------------------------------------------------------------- identifiers

  predicate NotDash(c: char)
  {
    c != '-'
  }

  /** `str.replace("-", "")`. */
  function StripDash(s: string): string
  {
    Filter(s, NotDash)
  }

  /** Stripping removes every dash and only dashes, keeps the order of the
      other characters, and a second strip changes nothing. */
  lemma StripDashSpec(s: string)
    ensures forall i :: 0 <= i < |StripDash(s)| ==> StripDash(s)[i] != '-'
    ensures IsSubsequence(StripDash(s), s)
    ensures forall c :: multiset(StripDash(s))[c] == if c == '-' then 0 else multiset(s)[c]
    ensures StripDash(StripDash(s)) == StripDash(s)
  {
    var t := StripDash(s);
    forall i | 0 <= i < |t|
      ensures t[i] != '-'
    {
      assert t[i] in t;
    }
    FilterIsSubsequence(s, NotDash);
    forall c {
      FilterCount(s, NotDash, c);
    }
    FilterAll(t, NotDash);
  }

  /** The non-missing business numbers of the rows, in row order (`dropna`). */
  function Present(rows: seq<Row>): (ids: seq<string>)
    ensures forall i :: 0 <= i < |ids| ==> exists j :: 0 <= j < |rows| && rows[j].businessNo == Some(ids[i])
    ensures forall j :: 0 <= j < |rows| && rows[j].businessNo.Some? ==> rows[j].businessNo.value in ids
  {
    if rows == [] then []
    else
      var init, last := rows[..|rows| - 1], rows[|rows| - 1];
      assert forall j :: 0 <= j < |init| ==> init[j] == rows[j];
      Present(init) + (if last.businessNo.Some? then [last.businessNo.value] else [])
  }

  /** `filtered_df['사업자번호'].dropna().unique()`: every present number once,
      in order of first appearance. Dashes are still in place here. */
  function BusinessNumbers(rows: seq<Row>): (ids: seq<string>)
    ensures NoDuplicates(ids)
    ensures forall i :: 0 <= i < |ids| ==> exists j :: 0 <= j < |rows| && rows[j].businessNo == Some(ids[i])
    ensures forall j :: 0 <= j < |rows| && rows[j].businessNo.Some? ==> rows[j].businessNo.value in ids
  {
    var present := Present(rows);
    var ids := Distinct(present);
    assert forall i :: 0 <= i < |ids| ==> ids[i] in present;
    ids
  }

  /** Where the `a`-th present number comes from: a row whose prefix up to
      and including it yields exactly the first `a + 1` present numbers. */
  lemma {:induction false} PresentSource(rows: seq<Row>, a: nat) returns (p: nat)
    requires a < |Present(rows)|
    ensures p < |rows| && rows[p].businessNo == Some(Present(rows)[a])
    ensures Present(rows[..p + 1]) == Present(rows)[..a + 1]
  {
    var init, last := rows[..|rows| - 1], rows[|rows| - 1];
    var extra := if last.businessNo.Some? then [last.businessNo.value] else [];
    assert Present(rows) == Present(init) + extra;
    if a < |Present(init)| {
      p := PresentSource(init, a);
      assert init[..p + 1] == rows[..p + 1];
      assert Present(rows)[..a + 1] == Present(init)[..a + 1];
    } else {
      p := |rows| - 1;
      assert rows[..p + 1] == rows;
    }
  }

  /** Some row holds `x` before any row holds `y`. */
  ghost predicate FirstBefore(rows: seq<Row>, x: string, y: string)
  {
    exists p :: 0 <= p < |rows| && rows[p].businessNo == Some(x) && NoneHolds(rows[..p + 1], y)
  }

  ghost predicate NoneHolds(rows: seq<Row>, y: string)
  {
    forall q :: 0 <= q < |rows| ==> rows[q].businessNo != Some(y)
  }

  /** A number missing from the first `a + 1` present numbers is held by no
      row up to the one the `a`-th present number comes from. */
  lemma FirstBeforeAt(rows: seq<Row>, a: nat, y: string)
    requires a < |Present(rows)| && y !in Present(rows)[..a + 1]
    ensures FirstBefore(rows, Present(rows)[a], y)
  {
    var p := PresentSource(rows, a);
    var head := rows[..p + 1];
    forall q | 0 <= q < |head|
      ensures head[q].businessNo != Some(y)
    {
      if head[q].businessNo.Some? {
        assert head[q].businessNo.value in Present(head);
      }
    }
  }

  /** The numbers are sent in order of first appearance: of two numbers in
      the list, the earlier one occurs in some row before any row holds the
      later one. */
  lemma BusinessNumbersOrder(rows: seq<Row>)
    ensures forall i, j :: 0 <= i < j < |BusinessNumbers(rows)| ==>
      FirstBefore(rows, BusinessNumbers(rows)[i], BusinessNumbers(rows)[j])
  {
    var present, ids := Present(rows), BusinessNumbers(rows);
    assert ids == Distinct(present);
    DistinctOrder(present);
    forall i, j | 0 <= i < j < |ids|
      ensures FirstBefore(rows, ids[i], ids[j])
    {
      var a :| 0 <= a < |present| && present[a] == ids[i] && ids[j] !in present[..a + 1];
      FirstBeforeAt(rows, a, ids[j]);
    }
  }

  // ---------------------------------------------------------------- chunks

  function MinInt(a: int, b: int): int
  {
    if a <= b then a else b
  }

  /** The number of chunks: `len(range(0, n, 100))`. */
  function ChunkCount(n: nat): nat
  {
    (n + BatchSize - 1) / BatchSize
  }

  /** `[ids[i:i + 100] for i in range(0, len(ids), 100)]`. */
  function Chunks(ids: seq<string>): (chunks: seq<seq<string>>)
    ensures |chunks| == ChunkCount(|ids|)
  {
    seq(ChunkCount(|ids|), k requires 0 <= k < ChunkCount(|ids|) =>
      ids[k * BatchSize..MinInt(k * BatchSize + BatchSize, |ids|)])
  }

  /** Past the first chunk, the chunks are those of the rest. */
  lemma ChunksTail(ids: seq<string>)
    requires |ids| > BatchSize
    ensures Chunks(ids)[1..] == Chunks(ids[BatchSize..])
  {
    var rest := ids[BatchSize..];
    assert ChunkCount(|ids|) == ChunkCount(|rest|) + 1;
    forall k | 0 <= k < ChunkCount(|rest|)
      ensures Chunks(ids)[k + 1] == Chunks(rest)[k]
    {
      var a := k * BatchSize;
      var hi := MinInt(a + BatchSize, |rest|);
      assert (k + 1) * BatchSize == BatchSize + a;
      assert MinInt(BatchSize + a + BatchSize, |ids|) == BatchSize + hi;
      assert Chunks(rest)[k] == rest[a..hi];
      assert Chunks(ids)[k + 1] == ids[BatchSize + a..BatchSize + hi];
      assert rest[a..hi] == ids[BatchSize + a..BatchSize + hi];
    }
  }

  /** The chunks, concatenated, give back the identifiers, in order. */
  lemma {:induction false} ChunksCover(ids: seq<string>)
    ensures Flatten(Chunks(ids)) == ids
    decreases |ids|
  {
    var chunks := Chunks(ids);
    if |ids| > BatchSize {
      ChunksTail(ids);
      ChunksCover(ids[BatchSize..]);
      assert chunks[0] == ids[..BatchSize];
      assert ids == ids[..BatchSize] + ids[BatchSize..];
    } else if ids != [] {
      assert |chunks| == 1 && chunks[0] == ids;
      assert Flatten(chunks[1..]) == [];
      assert ids + [] == ids;
    }
  }

  /** Every chunk holds between 1 and 100 identifiers, and all but the last
      exactly 100. */
  lemma ChunkSizes(ids: seq<string>, k: nat)
    requires k < |Chunks(ids)|
    ensures 1 <= |Chunks(ids)[k]| <= BatchSize
    ensures k < |Chunks(ids)| - 1 ==> |Chunks(ids)[k]| == BatchSize
  {
  }

  // ---------------------------------------------------------------- replies

  /** One element of a reply's `data` list; a missing key is `None`. */
  datatype Entry = Entry(bNo: Option<string>, bStt: Option<string>, endDt: Option<string>)

  /** `{'영업상태': status, '폐업일': end_date}`. */
  datatype Status = Status(state: string, closedOn: string)

  /** What one request gives back: status 200 with a 'data' list, status 200
      without one, another status code, or a connection error or timeout. */
  datatype Reply = Ok(data: seq<Entry>) | Ok200NoData | HttpErr | ConnErr

  function GetOr(v: Option<string>, default: string): string
  {
    if v.Some? then v.value else default
  }

  /** The `status_info` key of an entry: `data_entry.get('b_no', '')`. */
  function KeyOf(e: Entry): string
  {
    GetOr(e.bNo, "")
  }

  /** The value stored for an entry, with '정보 없음' for a missing field. */
  function StatusOf(e: Entry): Status
  {
    Status(GetOr(e.bStt, NoInfo), GetOr(e.endDt, NoInfo))
  }

  /** `status_info` after the entries of one reply are written in order. */
  function Record(info: map<string, Status>, data: seq<Entry>): map<string, Status>
  {
    if data == [] then info
    else
      var last := data[|data| - 1];
      Record(info, data[..|data| - 1])[KeyOf(last) := StatusOf(last)]
  }

  /** The entry written last for a key is the one that stays. */
  lemma {:induction false} RecordLastWins(info: map<string, Status>, data: seq<Entry>, j: nat)
    requires j < |data|
    requires forall i :: j < i < |data| ==> KeyOf(data[i]) != KeyOf(data[j])
    ensures KeyOf(data[j]) in Record(info, data)
    ensures Record(info, data)[KeyOf(data[j])] == StatusOf(data[j])
  {
    if j < |data| - 1 {
      var init := data[..|data| - 1];
      assert forall i :: j < i < |init| ==> init[i] == data[i];
      RecordLastWins(info, init, j);
    }
  }

  /** A key no entry carries keeps its old value, or stays absent. */
  lemma {:induction false} RecordUntouched(info: map<string, Status>, data: seq<Entry>, key: string)
    requires forall i :: 0 <= i < |data| ==> KeyOf(data[i]) != key
    ensures key in Record(info, data) <==> key in info
    ensures key in info ==> Record(info, data)[key] == info[key]
  {
    if data != [] {
      var init := data[..|data| - 1];
      assert forall i :: 0 <= i < |init| ==> init[i] == data[i];
      RecordUntouched(info, init, key);
    }
  }

  /** Recording only adds keys: the old ones and those of the entries. */
  lemma {:induction false} RecordKeys(info: map<string, Status>, data: seq<Entry>, key: string)
    ensures key in Record(info, data) <==> key in info || exists i :: 0 <= i < |data| && KeyOf(data[i]) == key
  {
    if data != [] {
      var init := data[..|data| - 1];
      RecordKeys(info, init, key);
      if exists i :: 0 <= i < |init| && KeyOf(init[i]) == key {
        var i :| 0 <= i < |init| && KeyOf(init[i]) == key;
        assert KeyOf(data[i]) == key;
      }
      if exists i :: 0 <= i < |data| && KeyOf(data[i]) == key {
        var i :| 0 <= i < |data| && KeyOf(data[i]) == key;
        if i < |init| {
          assert KeyOf(init[i]) == key;
        }
      }
    }
  }

  // ---------------------------------------------------------------- the retry loop

  /** `payload_dict["b_no"]`: the chunk with dashes stripped. */
  function Payload(chunk: seq<string>): (payload: seq<string>)
    ensures |payload| == |chunk|
  {
    seq(|chunk|, i requires 0 <= i < |chunk| => StripDash(chunk[i]))
  }

  /** No identifier sent to the service contains a dash. */
  lemma PayloadClean(chunk: seq<string>, i: nat)
    requires i < |chunk|
    ensures forall c :: 0 <= c < |Payload(chunk)[i]| ==> Payload(chunk)[i][c] != '-'
  {
    StripDashSpec(chunk[i]);
  }

  /** Everything the lookup accumulates: `status_info`, `completed`, the
      sleeps, the payloads sent, the chunks warned about, and the value of
      `completed` shown after each chunk. */
  datatype Lookup = Lookup(
    statusInfo: map<string, Status>,
    completed: nat,
    sleeps: nat,
    sent: seq<seq<string>>,
    failed: seq<seq<string>>,
    progress: seq<nat>)

  const Start := Lookup(map[], 0, 0, [], [], [])

  /** The lookup in the middle of one chunk's `while` loop. */
  datatype Try = Try(st: Lookup, success: bool, retries: nat)

  /** One pass of the `while` body: send the payload and react to the reply. */
  function Step(t: Try, chunk: seq<string>, reply: Reply): Try
  {
    var st := t.st.(sent := t.st.sent + [Payload(chunk)]);
    match reply
    case Ok(data) => Try(st.(statusInfo := Record(st.statusInfo, data)), true, t.retries)
    case Ok200NoData => Try(st, t.success, t.retries)
    case HttpErr => Try(st.(sleeps := st.sleeps + 1), t.success, t.retries + 1)
    case ConnErr =>
      Try(st.(sleeps := if t.retries + 1 < MaxRetries then st.sleeps + 1 else st.sleeps), t.success, t.retries + 1)
  }

  /** How a chunk's loop ends: it settles, leaving the rest of the script,
      or the script runs out while it still loops. */
  datatype ChunkOutcome = Settled(t: Try, rest: seq<Reply>) | Stuck(t: Try)

  /** `while not success and retries < MAX_RETRIES`, one reply per pass. */
  function RunChunk(chunk: seq<string>, t: Try, script: seq<Reply>): ChunkOutcome
    decreases |script|
  {
    if t.success || t.retries >= MaxRetries then Settled(t, script)
    else if script == [] then Stuck(t)
    else RunChunk(chunk, Step(t, chunk, script[0]), script[1..])
  }

  /** The bookkeeping after a chunk's loop: the progress counter, and the
      warning for a chunk that never succeeded. */
  function Finish(st: Lookup, chunk: seq<string>, success: bool): Lookup
  {
    var completed := st.completed + |chunk|;
    st.(completed := completed,
        progress := st.progress + [completed],
        failed := if success then st.failed else st.failed + [chunk])
  }

  datatype Outcome = Finished(st: Lookup) | Stalled(st: Lookup)

  /** `for chunk in chunks`, each from `success = False, retries = 0`. */
  function Run(chunks: seq<seq<string>>, st: Lookup, script: seq<Reply>): Outcome
    decreases |chunks|
  {
    if chunks == [] then Finished(st)
    else
      match RunChunk(chunks[0], Try(st, false, 0), script)
      case Stuck(t) => Stalled(t.st)
      case Settled(t, rest) => Run(chunks[1..], Finish(t.st, chunks[0], t.success), rest)
  }

  /** One more pass of a chunk's loop. */
  lemma ChunkStep(chunk: seq<string>, t: Try, script: seq<Reply>)
    requires !t.success && t.retries < MaxRetries && script != []
    ensures RunChunk(chunk, t, script) == RunChunk(chunk, Step(t, chunk, script[0]), script[1..])
  {
  }

  lemma FinishFields(st: Lookup, chunk: seq<string>, success: bool)
    ensures Finish(st, chunk, success)
         == Lookup(st.statusInfo, st.completed + |chunk|, st.sleeps, st.sent,
                   if success then st.failed else st.failed + [chunk], st.progress + [st.completed + |chunk|])
  {
  }

  /** A run whose first chunk settles goes on with the remaining chunks. */
  lemma RunAfterChunk(chunks: seq<seq<string>>, i: nat, st: Lookup, script: seq<Reply>, t: Try, rest: seq<Reply>)
    requires i < |chunks| && RunChunk(chunks[i], Try(st, false, 0), script) == Settled(t, rest)
    ensures Run(chunks[i..], st, script) == Run(chunks[i + 1..], Finish(t.st, chunks[i], t.success), rest)
  {
    assert chunks[i..][0] == chunks[i] && chunks[i..][1..] == chunks[i + 1..];
  }

  /** A run whose chunk stays stuck stalls with that chunk's state. */
  lemma RunStuck(chunks: seq<seq<string>>, i: nat, st: Lookup, script: seq<Reply>, t: Try)
    requires i < |chunks| && RunChunk(chunks[i], Try(st, false, 0), script) == Stuck(t)
    ensures Run(chunks[i..], st, script) == Stalled(t.st)
  {
    assert chunks[i..][0] == chunks[i];
  }

  /** The number of requests that failed with an error. */
  function Failures(replies: seq<Reply>): nat
  {
    if replies == [] then 0
    else Failures(replies[..|replies| - 1]) + (if replies[|replies| - 1] in {HttpErr, ConnErr} then 1 else 0)
  }

  /** A chunk's loop ends with success or with three failures, never with
      more, and consumes a prefix of the script. */
  lemma {:induction false} ChunkEnds(chunk: seq<string>, t: Try, script: seq<Reply>)
    requires t.retries <= MaxRetries
    ensures RunChunk(chunk, t, script).Settled? ==>
      var o := RunChunk(chunk, t, script);
      && (o.t.success || o.t.retries == MaxRetries)
      && o.t.retries <= MaxRetries
      && |o.rest| <= |script| && o.rest == script[|script| - |o.rest|..]
    ensures RunChunk(chunk, t, script).Stuck? ==> !RunChunk(chunk, t, script).t.success
    decreases |script|
  {
    if !(t.success || t.retries >= MaxRetries) && script != [] {
      ChunkEnds(chunk, Step(t, chunk, script[0]), script[1..]);
    }
  }

  /** A chunk that never succeeds writes nothing to `status_info`. */
  lemma {:induction false} FailureKeepsInfo(chunk: seq<string>, t: Try, script: seq<Reply>)
    requires !t.success
    ensures !RunChunk(chunk, t, script).t.success ==> RunChunk(chunk, t, script).t.st.statusInfo == t.st.statusInfo
    decreases |script|
  {
    if !(t.retries >= MaxRetries) && script != [] {
      var next := Step(t, chunk, script[0]);
      if !next.success {
        FailureKeepsInfo(chunk, next, script[1..]);
      }
    }
  }

  /** The first `Ok` reply that arrives before the third failure ends the
      loop; its entries, and only they, are recorded. */
  lemma {:induction false} FirstOkWins(chunk: seq<string>, t: Try, script: seq<Reply>, j: nat)
    requires !t.success
    requires j < |script| && script[j].Ok?
    requires forall i :: 0 <= i < j ==> !script[i].Ok?
    requires t.retries + Failures(script[..j]) < MaxRetries
    ensures RunChunk(chunk, t, script).Settled?
    ensures RunChunk(chunk, t, script).t.success
    ensures RunChunk(chunk, t, script).rest == script[j + 1..]
    ensures RunChunk(chunk, t, script).t.st.statusInfo == Record(t.st.statusInfo, script[j].data)
    decreases j
  {
    if j > 0 {
      var next := Step(t, chunk, script[0]);
      FailuresSplit(script[..j]);
      assert script[..j][1..] == script[1..][..j - 1];
      FirstOkWins(chunk, next, script[1..], j - 1);
    }
  }

  /** The partner of `FirstOkWins`: with no `Ok` reply yet, the loop stops at
      once at the third failure, recording nothing, and leaves every later
      reply, an `Ok` included, unread. */
  lemma {:induction false} ThirdFailureEnds(chunk: seq<string>, t: Try, script: seq<Reply>, j: nat)
    requires !t.success && t.retries < MaxRetries
    requires j < |script| && script[j] in {HttpErr, ConnErr}
    requires forall i :: 0 <= i <= j ==> !script[i].Ok?
    requires t.retries + Failures(script[..j + 1]) == MaxRetries
    ensures RunChunk(chunk, t, script).Settled?
    ensures !RunChunk(chunk, t, script).t.success
    ensures RunChunk(chunk, t, script).rest == script[j + 1..]
    ensures RunChunk(chunk, t, script).t.st.statusInfo == t.st.statusInfo
    decreases j
  {
    var next := Step(t, chunk, script[0]);
    FailuresSplit(script[..j + 1]);
    if j == 0 {
      assert script[..1][1..] == [];
      assert RunChunk(chunk, next, script[1..]) == Settled(next, script[1..]);
    } else {
      var tail := script[1..];
      assert script[..j + 1][1..] == tail[..j];
      assert tail[..j][..j - 1] == tail[..j - 1];
      assert Failures(tail[..j]) >= 1;
      ThirdFailureEnds(chunk, next, tail, j - 1);
      assert tail[j..] == script[j + 1..];
    }
  }

  /** Failures counted from the front. */
  lemma {:induction false} FailuresSplit(replies: seq<Reply>)
    requires replies != []
    ensures Failures(replies) == (if replies[0] in {HttpErr, ConnErr} then 1 else 0) + Failures(replies[1..])
    decreases |replies|
  {
    if |replies| > 1 {
      var init := replies[..|replies| - 1];
      FailuresSplit(init);
      assert init[1..] == replies[1..][..|replies[1..]| - 1];
    } else {
      assert replies[1..] == [];
      assert replies[..0] == [];
    }
  }

  /** Failing on status codes only (200 replies without 'data' in between
      change nothing): the loop gives up after three failures and sleeps after
      each of them, the last included. */
  lemma {:induction false} HttpOnlySleeps(chunk: seq<string>, t: Try, script: seq<Reply>)
    requires !t.success && t.retries <= MaxRetries
    requires forall i :: 0 <= i < |script| ==> script[i] in {HttpErr, Ok200NoData}
    requires RunChunk(chunk, t, script).Settled?
    ensures !RunChunk(chunk, t, script).t.success
    ensures RunChunk(chunk, t, script).t.retries == MaxRetries
    ensures RunChunk(chunk, t, script).t.st.sleeps == t.st.sleeps + (MaxRetries - t.retries)
    decreases |script|
  {
    if t.retries < MaxRetries {
      HttpOnlySleeps(chunk, Step(t, chunk, script[0]), script[1..]);
    }
  }

  /** Failing on connection errors only: the loop gives up after three
      failures but sleeps only after the first two. */
  lemma {:induction false} ConnOnlySleeps(chunk: seq<string>, t: Try, script: seq<Reply>)
    requires !t.success && t.retries <= MaxRetries
    requires forall i :: 0 <= i < |script| ==> script[i] in {ConnErr, Ok200NoData}
    requires RunChunk(chunk, t, script).Settled?
    ensures !RunChunk(chunk, t, script).t.success
    ensures RunChunk(chunk, t, script).t.retries == MaxRetries
    ensures RunChunk(chunk, t, script).t.st.sleeps
         == t.st.sleeps + (if t.retries < MaxRetries then MaxRetries - 1 - t.retries else 0)
    decreases |script|
  {
    if t.retries < MaxRetries {
      ConnOnlySleeps(chunk, Step(t, chunk, script[0]), script[1..]);
    }
  }

  /** 200 replies without 'data' never end the loop: with nothing else to
      come it spins until the script runs out. */
  lemma {:induction false} NoDataStalls(chunk: seq<string>, t: Try, script: seq<Reply>)
    requires !t.success && t.retries < MaxRetries
    requires forall i :: 0 <= i < |script| ==> script[i] == Ok200NoData
    ensures RunChunk(chunk, t, script).Stuck?
    ensures RunChunk(chunk, t, script).t.retries == t.retries
    ensures RunChunk(chunk, t, script).t.st.statusInfo == t.st.statusInfo
    ensures |RunChunk(chunk, t, script).t.st.sent| == |t.st.sent| + |script|
    decreases |script|
  {
    if script != [] {
      NoDataStalls(chunk, Step(t, chunk, script[0]), script[1..]);
    }
  }

  /** The loop of one chunk leaves the progress counters alone. */
  lemma {:induction false} ChunkKeepsCounters(chunk: seq<string>, t: Try, script: seq<Reply>)
    ensures var o := RunChunk(chunk, t, script).t.st;
      o.completed == t.st.completed && o.progress == t.st.progress && o.failed == t.st.failed
    decreases |script|
  {
    if !(t.success || t.retries >= MaxRetries) && script != [] {
      ChunkKeepsCounters(chunk, Step(t, chunk, script[0]), script[1..]);
    }
  }

  /** The values `completed` takes after each chunk, starting from `base`. */
  function Completions(chunks: seq<seq<string>>, base: nat): (counts: seq<nat>)
    ensures |counts| == |chunks|
  {
    if chunks == [] then [] else [base + |chunks[0]|] + Completions(chunks[1..], base + |chunks[0]|)
  }

  /** After the k-th chunk, `completed` is the size of the first k chunks. */
  lemma {:induction false} CompletionsArePrefixSizes(chunks: seq<seq<string>>, base: nat, k: nat)
    requires k < |chunks|
    ensures Completions(chunks, base)[k] == base + |Flatten(chunks[..k + 1])|
    decreases k
  {
    if k > 0 {
      CompletionsArePrefixSizes(chunks[1..], base + |chunks[0]|, k - 1);
      assert chunks[..k + 1][1..] == chunks[1..][..k];
    } else {
      assert chunks[..1][1..] == [];
    }
  }

  /** The first chunk of a finished run settles and moves the counters on. */
  lemma RunFirstChunk(chunks: seq<seq<string>>, st: Lookup, script: seq<Reply>) returns (next: Lookup, rest: seq<Reply>)
    requires chunks != [] && Run(chunks, st, script).Finished?
    ensures next.completed == st.completed + |chunks[0]|
    ensures next.progress == st.progress + [next.completed]
    ensures Run(chunks, st, script) == Run(chunks[1..], next, rest)
  {
    var o := RunChunk(chunks[0], Try(st, false, 0), script);
    ChunkKeepsCounters(chunks[0], Try(st, false, 0), script);
    next, rest := Finish(o.t.st, chunks[0], o.t.success), o.rest;
    FinishFields(o.t.st, chunks[0], o.t.success);
  }

  /** A finished run counts every identifier once. */
  lemma {:induction false} RunCompleted(chunks: seq<seq<string>>, st: Lookup, script: seq<Reply>)
    requires Run(chunks, st, script).Finished?
    ensures Run(chunks, st, script).st.completed == st.completed + |Flatten(chunks)|
    decreases |chunks|
  {
    if chunks != [] {
      var next, rest := RunFirstChunk(chunks, st, script);
      RunCompleted(chunks[1..], next, rest);
    }
  }

  /** A finished run shows each chunk's count in turn. */
  lemma {:induction false} RunProgress(chunks: seq<seq<string>>, st: Lookup, script: seq<Reply>)
    requires Run(chunks, st, script).Finished?
    ensures Run(chunks, st, script).st.progress == st.progress + Completions(chunks, st.completed)
    decreases |chunks|
  {
    if chunks != [] {
      var next, rest := RunFirstChunk(chunks, st, script);
      RunProgress(chunks[1..], next, rest);
      var count := next.completed;
      assert Completions(chunks, st.completed) == [count] + Completions(chunks[1..], count);
      assert (st.progress + [count]) + Completions(chunks[1..], count)
          == st.progress + ([count] + Completions(chunks[1..], count));
    }
  }

  /** Looking up a list of identifiers that finishes ends with `completed`
      equal to `total`, after showing the count of each chunk in turn. */
  lemma LookupCountsAll(ids: seq<string>, script: seq<Reply>)
    requires Run(Chunks(ids), Start, script).Finished?
    ensures Run(Chunks(ids), Start, script).st.completed == |ids|
    ensures Run(Chunks(ids), Start, script).st.progress == Completions(Chunks(ids), 0)
  {
    RunCompleted(Chunks(ids), Start, script);
    RunProgress(Chunks(ids), Start, script);
    ChunksCover(ids);
  }

  /** The count shown after the last chunk is `total`. */
  lemma LastCountIsTotal(ids: seq<string>)
    requires ids != []
    ensures Completions(Chunks(ids), 0)[|Chunks(ids)| - 1] == |ids|
  {
    var chunks := Chunks(ids);
    ChunksCover(ids);
    CompletionsArePrefixSizes(chunks, 0, |chunks| - 1);
    assert chunks[..|chunks|] == chunks;
  }

  // ---------------------------------------------------------------- the lookup

  /** app.py:414-418: the loop over a reply's entries, writing each into
      `status_info`. */
  method RecordReply(statusInfo: map<string, Status>, data: seq<Entry>) returns (updated: map<string, Status>)
    ensures updated == Record(statusInfo, data)
  {
    updated := statusInfo;
    for k := 0 to |data|
      invariant updated == Record(statusInfo, data[..k])
    {
      var entry := data[k];
      updated := updated[KeyOf(entry) := StatusOf(entry)];
      assert data[..k + 1][..k] == data[..k];
    }
    assert data[..|data|] == data;
  }

  /** app.py:405-428: one chunk's retry loop, from `success = False` and
      `retries = 0`, reading replies from position `start` of the script.
      `stuck` says that the script ran out while the loop still went on. */
  method RetryChunk(chunk: seq<string>, st: Lookup, script: seq<Reply>, start: nat)
    returns (t: Try, pos: nat, stuck: bool)
    requires start <= |script|
    ensures pos <= |script|
    ensures stuck ==> RunChunk(chunk, Try(st, false, 0), script[start..]) == Stuck(t)
    ensures !stuck ==> RunChunk(chunk, Try(st, false, 0), script[start..]) == Settled(t, script[pos..])
  {
    var statusInfo, sleeps, sent := st.statusInfo, st.sleeps, st.sent;
    var success, retries: nat := false, 0;
    pos := start;
    while !success && retries < MaxRetries
      invariant pos <= |script|
      invariant RunChunk(chunk, Try(st.(statusInfo := statusInfo, sleeps := sleeps, sent := sent), success, retries), script[pos..])
             == RunChunk(chunk, Try(st, false, 0), script[start..])
      decreases |script| - pos
    {
      if pos == |script| {
        return Try(st.(statusInfo := statusInfo, sleeps := sleeps, sent := sent), success, retries), pos, true;
      }
      ghost var before := Try(st.(statusInfo := statusInfo, sleeps := sleeps, sent := sent), success, retries);
      var reply := script[pos];
      ChunkStep(chunk, before, script[pos..]);
      pos := pos + 1;
      sent := sent + [Payload(chunk)];
      match reply {
        case Ok(data) =>
          statusInfo := RecordReply(statusInfo, data);
          success := true;
        case Ok200NoData =>
        case HttpErr =>
          retries := retries + 1;
          sleeps := sleeps + 1;
        case ConnErr =>
          retries := retries + 1;
          if retries < MaxRetries {
            sleeps := sleeps + 1;
          }
      }
      assert Try(st.(statusInfo := statusInfo, sleeps := sleeps, sent := sent), success, retries)
          == Step(before, chunk, reply);
    }
    t, stuck := Try(st.(statusInfo := statusInfo, sleeps := sleeps, sent := sent), success, retries), false;
  }

  /** app.py:397-435: the batches of 100, then the chunk loop. */
  method LookUp(numbers: seq<string>, script: seq<Reply>) returns (outcome: Outcome)
    ensures outcome == Run(Chunks(numbers), Start, script)
  {
    var chunks := Chunks(numbers);
    outcome := LookUpChunks(chunks, script);
  }

  /** The `for chunk in chunks` loop of app.py:404-435 around the retry loop,
      from the empty state, with the progress counter and the warning for a
      chunk that never succeeded. */
  method LookUpChunks(chunks: seq<seq<string>>, script: seq<Reply>) returns (outcome: Outcome)
    ensures outcome == Run(chunks, Start, script)
  {
    var statusInfo: map<string, Status> := map[];
    var completed: nat, sleeps: nat := 0, 0;
    var sent: seq<seq<string>>, failed: seq<seq<string>>, progress: seq<nat> := [], [], [];
    var pos := 0;
    assert chunks[0..] == chunks && script[0..] == script;

    for i := 0 to |chunks|
      invariant pos <= |script|
      invariant Run(chunks[i..], Lookup(statusInfo, completed, sleeps, sent, failed, progress), script[pos..])
             == Run(chunks, Start, script)
    {
      var chunk := chunks[i];
      var entry := Lookup(statusInfo, completed, sleeps, sent, failed, progress);
      var t, next, stuck := RetryChunk(chunk, entry, script, pos);
      if stuck {
        RunStuck(chunks, i, entry, script[pos..], t);
        return Stalled(t.st);
      }
      var replies := script[pos..];
      RunAfterChunk(chunks, i, entry, replies, t, script[next..]);
      ghost var after := Finish(t.st, chunk, t.success);
      assert Run(chunks[i + 1..], after, script[next..]) == Run(chunks, Start, script);
      assert t.st.completed == completed && t.st.progress == progress && t.st.failed == failed by {
        ChunkKeepsCounters(chunk, Try(entry, false, 0), replies);
        assert RunChunk(chunk, Try(entry, false, 0), replies).t == t;
      }
      statusInfo, sleeps, sent, pos := t.st.statusInfo, t.st.sleeps, t.st.sent, next;
      var success := t.success;

      completed := completed + |chunk|;
      progress := progress + [completed];
      if !success {
        failed := failed + [chunk];
      }
      assert Lookup(statusInfo, completed, sleeps, sent, failed, progress) == after by {
        FinishFields(t.st, chunk, t.success);
      }
    }
    assert chunks[|chunks|..] == [];
    outcome := Finished(Lookup(statusInfo, completed, sleeps, sent, failed, progress));
  }
}
